=== FILE: README.md ===
# Word Guess — a Dafny model of the game core

Word Guess is a browser game in the style of Wordle: the player has six
rows of five cells to find a five-letter solution. Each submitted row is
scored letter by letter (position match, contain match, no match), the
on-screen keyboard accumulates the same hints, and a statistics record
counts games, wins, losses, forfeits, guesses and rejected words.

This project models, as pure Dafny functions over immutable datatypes:

- **Letters** — the per-letter record shared by grid cells and keyboard
  keys, the blank letter, the three difficulty levels.
- **Text** — the string primitives the game relies on: counting a letter
  the way a one-letter global regular expression does, `indexOf`,
  `includes`, and the decimal text of a number.
- **Evaluator** — the letter loop of `validateWord`: for each guess index,
  mark the cell and the first matching keyboard key, then apply the
  duplicate-letter correction. The loop mutates the row and the keyboard
  in place; here it is two folds (`ScoreRow`, `MarkKeys`) over a `Board`,
  and `FoldsAreTheLoop` states that together they advance exactly as the
  single loop does, which follows from the definitions by unfolding once.
- **EvaluatorSpec** — reference definitions stated without the loop
  (`ExpectedRow` for a freshly typed row, `ExpectedKeyboard` for any
  keyboard), proofs that the folds compute them, the keyboard soundness
  invariant, and worked examples.
- **Util** — the CSS class of a letter, the emoji share text, and the
  repeated-guess check.
- **GameLogs** — the statistics record, its six updates, and the
  consistency invariant they keep.
- **GameStates** — the saved game, the blank default game and the manager
  that holds, replaces and resets it.
- **App** — the handlers: typing a letter, backspace, submit (hard-mode hint
  rule, dictionary check, then `validateWord`), and revealing the solution.
  A `Session` bundles game, record, solution and difficulty; each handler
  returns the next session and a `Notice` naming the outcome.
- **AppFacts** — what holds across handlers: the grid stays well formed,
  the keyboard never shows a flag that is false of the solution, the
  record stays consistent, a scored row equals the reference scoring, a
  loss happens only on the last row, a win happens exactly when the
  solution is typed, a win's share header shows the rows used, and
  backspace undoes a typed letter.

Where the code and its written description differ, the model follows the
code:

- The duplicate correction (`src/App.tsx:313-317`) clears the contain
  match of every earlier copy of an excess letter, position matches
  included.
- The position-match test of `src/App.tsx:319` scans the whole row, later
  cells included.
- An excess copy of a letter that occurs in the solution never gains
  `noMatch`. Once its contain match is cleared, a copy that is not a
  position hit carries no flag, and the letter class of `src/util.ts` is
  `""` for it; a copy that is a position hit keeps `positionMatch`
  (`BrakeBobby`: index 0 keeps it, indices 2 and 3 carry no flag). Every
  copy of a letter absent from the solution is a no-match.
- When no copy of an excess letter is a position hit, only the last copy
  keeps the contain match, not the first (`AllowLlama`); when some copy
  is a position hit, no copy keeps it (`BrakeBobby`).
- On the last row a wrong guess first moves the cursor to row 6, column 0
  (`src/App.tsx:336-339`), and only then records the loss.
- The keyboard only gains flags. The duplicate correction touches the row
  only.

## Model

| member | source | states |
|---|---|---|
| Letters.Typed | src/App.tsx:215-218 | a typed cell is the blank letter carrying the typed letter, every flag cleared |
| Letters.Spelled | src/App.tsx:240 | joining a row of one-letter cells gives a word of one letter per cell, in order; a blank row joins to "" |
| Letters.SpelledAppend | src/App.tsx:240 | joining distributes over splitting the row |
| Text.Occurrences | src/App.tsx:309-311 | the regex match count is at most the length and is positive exactly when the letter occurs |
| Text.OccurrencesIsMultiplicity | src/App.tsx:309-311 | the regex match count equals the letter's multiplicity in the multiset of the word |
| Text.OccurrencesAppend | src/App.tsx:309-311 | the count of a concatenation is the sum of the counts |
| Text.AnotherOccurrence | src/App.tsx:309-313 | a letter counted twice has a copy at another index than any given copy |
| Text.IndexOf | src/App.tsx:313 | `indexOf` is -1 exactly when the letter is absent, and otherwise the first index holding it |
| Text.IncludesLetter | src/App.tsx:241-242 | for a one-letter hint, `includes` is membership of the letter, with no regard to position |
| Text.NatToString | src/util.ts:29-30 | the decimal text of a count is non-empty, all digits, with no leading zero |
| Text.NatToStringRoundTrip | src/util.ts:29-30 | reading the decimal text of a number back gives the number |
| Text.IntToString | src/util.ts:29 | a negative puzzle number prints as a minus sign followed by the text of its magnitude |
| Evaluator.KeyIndex | src/App.tsx:277 | `find` returns the first key with the letter, or -1 when no key has it |
| Evaluator.KeyIndexLetters | src/App.tsx:277 | the lookup depends only on the keys' letters, not on their flags |
| Evaluator.MarkCell | src/App.tsx:279-306 | a solution letter gains contain match, loses no match and gains position match on a hit; any other letter gains no match; other cells, the letter and the disabled flag stay |
| Evaluator.MarkKey | src/App.tsx:277-306 | only the first key of the letter changes: contain and position match for a solution letter, no match (and disabled under the harder level) otherwise; a letter with no key changes nothing |
| Evaluator.CorrectDuplicates | src/App.tsx:308-321 | only contain match is ever cleared; nothing changes unless the letter is an excess repeat; then every earlier cell with the letter is cleared, and the current cell is cleared exactly when some cell of the row with that letter holds a position match; later cells stay |
| Evaluator.ClearBefore | src/App.tsx:314-316 | every cell before the index with the letter loses contain match, every other cell is unchanged |
| Evaluator.Step | src/App.tsx:279-321 | one iteration of the letter loop on row and keyboard together keeps the letters, leaves the cells after the index alone, only adds keyboard flags, and changes no key other than the first one for the letter |
| Evaluator.ScoreStep | src/App.tsx:279-321 | one iteration keeps letters and disabled flags, and leaves the cells after the index alone |
| Evaluator.ScoreRow | src/App.tsx:275-322 | after `n` iterations the row keeps its letters, and cells from `n` on are untouched |
| Evaluator.MarkKeys | src/App.tsx:275-322 | the keyboard only gains flags over the loop, and keeps its letters and length |
| Evaluator.FoldsAreTheLoop | src/App.tsx:275-322 | the row fold and the keyboard fold together advance as one iteration of the single loop; this holds by unfolding the definitions once |
| Evaluator.Evaluate | src/App.tsx:272-322 | the letter loop keeps the row's letters and the cells past the guess, and the keyboard only gains flags |
| EvaluatorSpec.FreshRow | src/App.tsx:215-218 | the row the keyboard handler leaves: one typed cell per letter, spelling the guess |
| EvaluatorSpec.PrefixRowAt | src/App.tsx:275-322 | the closed-form row between iterations starts as the freshly typed row before the first iteration and is the reference row after the last |
| EvaluatorSpec.RowScanIsHitBelow | src/App.tsx:319 | the position-match scan of the row at index `n` sees exactly the position hits of that letter up to `n` |
| EvaluatorSpec.StepKeepsPrefix | src/App.tsx:279-321 | one iteration carries the closed form after `n` iterations to the closed form after `n + 1` |
| EvaluatorSpec.ScoreRowFollows | src/App.tsx:275 | the row fold follows any sequence of rows that each iteration carries to the next |
| EvaluatorSpec.ScoreRowPrefix | src/App.tsx:275-322 | the row fold over a freshly typed row yields the closed form after all iterations |
| EvaluatorSpec.EvaluateFreshRow | src/App.tsx:272-322 | scoring a freshly typed guess yields, cell by cell: position match iff a hit at that index; no match iff absent from the solution; contain match iff in the solution and not (excess and (a later copy follows or some copy is a hit)) |
| EvaluatorSpec.MarkKeyStep | src/App.tsx:277-306 | one keyboard update carries the keyboard description after `n` letters to the one after `n + 1` |
| EvaluatorSpec.MarkKeysExpected | src/App.tsx:275-306 | the keyboard fold yields every key's old flags OR the flags its guess letters contribute |
| EvaluatorSpec.EvaluateKeyboard | src/App.tsx:275-306 | after the loop each key holds its old flags OR the contributions of the letters that look it up, whatever the row held |
| EvaluatorSpec.EvaluateKeepsKeyboardSound | src/App.tsx:282-306 | a keyboard whose flags are true of the solution stays so; no key shows both no match and contain match |
| EvaluatorSpec.GuessLetterKey | src/App.tsx:282-306 | after the loop the key of each guess letter shows contain match, position match on a hit, and no match (disabled under the harder level) for an absent letter |
| EvaluatorSpec.SolutionGuessAllPositionMatch | src/App.tsx:282-295 | guessing the solution marks every cell a position and contain match |
| EvaluatorSpec.DisjointGuessAllNoMatch | src/App.tsx:296-306 | a guess with no solution letter marks every cell a no match only |
| EvaluatorSpec.AllowLlama | src/App.tsx:308-321 | solution ALLOW, guess LLAMA: both L credited, M a no match, the first A loses its contain match and the last A keeps it |
| EvaluatorSpec.BrakeBobby | src/App.tsx:308-321 | solution BRAKE, guess BOBBY: the hit B loses its contain match, the excess B copies end with no flag at all |
| EvaluatorSpec.RobotBooth | src/App.tsx:282-321 | solution ROBOT, guess BOOTH: no letter is in excess, so every solution letter keeps its contain match and only the O at index 1 is a position match |
| Util.DetermineLetterClass | src/util.ts:5-19 | position match wins; contain match shows iff not a position match; no match shows iff neither match flag is set; "" iff no flag is set |
| Util.ShareSymbol | src/util.ts:35-41 | green iff position match, yellow iff contain match only, black iff neither |
| Util.ShareSymbolMatchesClass | src/util.ts:5-41 | the share symbol agrees with the on-screen class; black covers both no match and an unmarked cell |
| Util.RowSymbols | src/util.ts:34-42 | one symbol per cell, in order |
| Util.KeptRows | src/util.ts:25-27 | the filter keeps only rows that are not all blank, keeps all when none is blank and none when all are |
| Util.KeptRowsMembers | src/util.ts:25-27 | a row is kept iff it is a row of the grid and not all blank |
| Util.KeptRowsAppend | src/util.ts:25-27 | filtering distributes over splitting the grid |
| Util.ShareBodyLength | src/util.ts:33-44 | a body of `n` rows of width `w` has `n * (w + 1)` characters |
| Util.ShareBodyAt | src/util.ts:33-44 | character `k` of line `r` is the symbol of cell `k` of row `r`, and each line ends in a newline |
| Util.ShareHeader | src/util.ts:28-31 | the header reads back as the title, the puzzle number, a space, the score, then "/6" and a blank line, each at its offset |
| Util.GenerateShareText | src/util.ts:20-47 | the text is the header with puzzle number and score ("X" on a failure, else the kept-row count) followed by the body of the kept rows |
| Util.AnySpells | src/util.ts:53-55 | `some` finds a row spelling the guess iff one exists |
| Util.PreviousGuess | src/util.ts:48-56 | true iff a row strictly above the cursor row spells the guess |
| GameLogs.RecordSolved | src/GameLogManager.ts:84-88 | a word that is new, or stored as 0, records the count; a stored word keeps the smaller count; other words stay |
| GameLogs.UpdateWinCount | src/GameLogManager.ts:75-90 | played, wins and streak go up by one, the best streak follows, exactly the bucket of the guess count goes up by one, the solved table is updated, the other counters stay |
| GameLogs.UpdateLossCount | src/GameLogManager.ts:92-97 | played and losses go up by one, the streak ends, nothing else changes |
| GameLogs.UpdateForfeitCount | src/GameLogManager.ts:99-103 | played and forfeits go up by one, nothing else changes, the streak included |
| GameLogs.UpdateGuessCount | src/GameLogManager.ts:105-108 | the guess count goes up by one, nothing else changes |
| GameLogs.UpdateInvalidWordCount | src/GameLogManager.ts:110-113 | the rejected-word count goes up by one, nothing else changes |
| GameLogs.ResetGameLog | src/GameLogManager.ts:115-118 | every counter is zero, no word is solved, and each of the six buckets is present and holds 0 |
| GameLogs.Apply | src/GameLogManager.ts:75-118 | each update, given a win count of 1 to 6, keeps the invariant: played = wins + losses + forfeits, streak <= best <= wins, buckets sum to wins, solved counts within 1..6 |
| GameLogs.WinCountKeepsInvariant | src/GameLogManager.ts:75-90 | a win in 1 to 6 guesses keeps the buckets summing to the wins |
| GameLogs.ReplayKeepsInvariant | src/GameLogManager.ts:75-118 | any sequence of updates keeps the invariant, so played always equals wins + losses + forfeits |
| GameLogs.WinKeepsInvariant | src/App.tsx:270-333 | a counted guess followed by a win keeps the record consistent |
| GameLogs.MissKeepsInvariant | src/App.tsx:270-347 | a counted guess, alone or followed by a loss, keeps the record consistent |
| GameLogs.DefaultSatisfiesInvariant | src/GameLogManager.ts:20-40 | the all-zero record is consistent |
| GameStates.DefaultGuessMap | src/GameStateManager.tsx:38-40 | six rows of five blank letters |
| GameStates.DefaultLetterOptions | src/GameStateManager.tsx:42-47 | one key per alphabet letter, in order, every flag cleared |
| GameStates.DefaultGameState | src/GameStateManager.tsx:49-58 | blank grid, fresh keyboard, cursor at (0, 0), no flag, empty message, puzzle 0 |
| GameStates.GenerateNewGameState | src/GameStateManager.tsx:92-94 | a new game is the default game |
| GameStates.SaveGameState | src/GameStateManager.tsx:96-99 | the manager then holds exactly the given game |
| GameStates.ResetGameState | src/GameStateManager.tsx:101-104 | the manager then holds a new default game |
| App.ClearError | src/App.tsx:359-363 | the banner is hidden and the message emptied, nothing else changes |
| App.BlankCellMeansRoom | src/App.tsx:210-219 | in a well-formed game a blank cell in the cursor row means the cursor is before the end of the row |
| App.LetterMeansCursorMoved | src/App.tsx:228-230 | in a well-formed game a letter in the cursor row means the cursor is past its start |
| App.TypedIsFilled | src/App.tsx:215-218 | typed cells hold one letter each |
| App.CursorRowSpelling | src/App.tsx:240 | the cursor row spells one letter per cell the cursor has passed |
| App.RowBlankAtStart | src/App.tsx:119 | in a well-formed game the cursor row is blank exactly when the cursor is at the start of the row |
| App.BackspaceDisabled | src/App.tsx:110-121 | backspace is disabled once the game is over; in a well-formed game on the grid, exactly when the game is over or the cursor is at the start of its row |
| App.SubmitDisabled | src/App.tsx:110-121 | submit is enabled only in an open game on the grid; in a well-formed game on the grid, it is disabled exactly when the game is over or the cursor has not reached the end of the row |
| App.CursorWord | src/App.tsx:240 | the joined cursor row is "" off the grid, and for a filled row one letter per cell, in order |
| App.ContainsAllHints | src/App.tsx:241-242 | with one-letter keys, the hard-mode check holds exactly when every key flagged as a contain or position match has its letter somewhere in the word |
| App.Select | src/App.tsx:208-222 | off the grid (the source would throw) is refused exactly when the cursor row is past the grid; on the grid the letter is refused with "<letter> is disabled!" exactly when the harder level finds its key disabled; the letter is entered exactly when it is not refused, the game is open and the row has a blank cell, and then it fills the cursor cell, the cursor moves right and the banner is cleared; a refused letter only raises the banner, an ignored or off-grid press changes nothing, and the record, keyboard, outcome flags and puzzle number never change |
| App.Backspace | src/App.tsx:227-233 | a letter is erased exactly when backspace is enabled, the cursor row is on the grid and holds a non-blank cell; then the cell before the cursor becomes blank and the cursor moves left; the banner is cleared in every case, and the keyboard, outcome flags, puzzle number and record never change |
| App.SubmittedRowFits | src/App.tsx:117 | with submit enabled the cursor row is in the grid, its word fills it, and the win bucket for the row exists |
| App.ValidateWord | src/App.tsx:263-354 | a repeat of an earlier row changes nothing; otherwise the guess wins iff it is the solution |
| App.ScoredBoard | src/App.tsx:270-322 | a scored guess replaces the cursor row and the keyboard by the letter loop's result, leaves the other rows, counts one guess and clears the banner |
| App.ScoredWin | src/App.tsx:327-333 | a win leaves the cursor on the winning row and records a guess and then a win in row + 1 guesses |
| App.ScoredMiss | src/App.tsx:335-347 | a miss moves the cursor to the start of the next row; it is a loss iff on the last row, which records a guess and a loss |
| App.Submit | src/App.tsx:238-255 | the reply is Ignored iff submit is disabled; an enabled guess is refused for missing hints iff the level is not normal and some revealed letter is absent from it, and then nothing changes; otherwise a non-word is counted as invalid iff it is not in the dictionary, and a dictionary word is scored |
| App.SubmitScoresWord | src/App.tsx:238-248 | an enabled submit of a dictionary word that uses the hints is exactly `validateWord` on the cursor row's word |
| App.RevealSolution | src/App.tsx:447-457 | on an open game a forfeit is counted (the streak kept), the banner cleared and the failure shown; on a finished game nothing changes |
| AppFacts.SubmittedRowIsFresh | src/App.tsx:208-248 | with submit enabled the cursor row is exactly the freshly typed row of its word |
| AppFacts.DefaultGameWellFormed | src/GameStateManager.tsx:49-58 | the default game is well formed |
| AppFacts.SelectKeepsWellFormed | src/App.tsx:208-222 | typing keeps the grid well formed |
| AppFacts.BackspaceKeepsWellFormed | src/App.tsx:227-233 | backspace keeps the grid well formed |
| AppFacts.RevealKeepsWellFormed | src/App.tsx:447-457 | revealing keeps the grid well formed |
| AppFacts.ScoredKeepsWellFormed | src/App.tsx:263-354 | scoring the cursor row's word keeps the grid well formed |
| AppFacts.SubmitKeepsWellFormed | src/App.tsx:238-255 | submitting keeps the grid well formed |
| AppFacts.DefaultKeyboardSound | src/GameStateManager.tsx:42-47 | the fresh keyboard is sound for any solution |
| AppFacts.DefaultSessionInvariant | src/GameStateManager.tsx:49-58 | a new game with a new record satisfies the session invariant |
| AppFacts.ScoredKeepsSound | src/App.tsx:275-306 | scoring keeps the keyboard true of the solution |
| AppFacts.ScoredKeepsLog | src/App.tsx:270-347 | scoring keeps the record consistent |
| AppFacts.SubmitKeepsInvariant | src/App.tsx:238-255 | submitting keeps grid shape, keyboard soundness and record consistency |
| AppFacts.Act | src/App.tsx:208-255 | any single player action keeps the session invariant and the solution and difficulty |
| AppFacts.PlayKeepsInvariant | src/App.tsx:208-354 | any sequence of actions keeps the invariant; played always equals wins + losses + forfeits |
| AppFacts.ScoredRowExpected | src/App.tsx:263-322 | the scored cursor row is the reference scoring of the typed word, other rows unchanged |
| AppFacts.ScoredRowIsExpected | src/App.tsx:238-322 | a submitted and scored row ends as the reference scoring of the word typed in it |
| AppFacts.LossOnlyOnLastRow | src/App.tsx:335-347 | a loss happens only for a wrong guess on the last row, and leaves the cursor past the grid |
| AppFacts.WinIsSolution | src/App.tsx:327-333 | a win happens only for the solution, and the cursor stays on its row |
| AppFacts.MissIsNotSolution | src/App.tsx:335-347 | a scored guess that does not win is not the solution |
| AppFacts.HardModeUsesHints | src/App.tsx:241-243 | under the hard levels an accepted word contains the letter of every hinted key |
| AppFacts.KeptRowsPrefix | src/util.ts:25-27 | rows non-blank up to `m` and blank after keep exactly the first `m` |
| AppFacts.WonGridKeptRows | src/util.ts:25-27 | a well-formed won grid keeps exactly its rows up to the cursor row |
| AppFacts.WinShareScore | src/util.ts:28-31 | after a win on row `r` the share header gives the score `r + 1` |
| AppFacts.BackspaceUndoesSelect | src/App.tsx:208-233 | backspace right after typing restores the grid and the cursor |
| AppFacts.SelectUndoesBackspace | src/App.tsx:208-233 | typing the erased letter again restores the grid and the cursor, unless the harder level refuses it |

## Left out

- Browser storage, JSON copies and the clock: the stamps `lastUpdated` and `lastWin` and the reading and writing of saved games and records are not modelled. Saving and resetting a game only replace the game the manager holds.
- Object identity: the source mutates shared objects. Examples are the cells of the default grid, the `DefaultGameLog` object that `resetGameLog` assigns, and the `DefaultLetter` fallback of the keyboard lookup at `src/App.tsx:277`. The model has values only. A guess letter with no keyboard key leaves the keyboard unchanged.
- The choice of the solution and the puzzle number, the word lists and the alphabet: dictionary membership (`isWord`) and the alphabet are parameters.
- `generateEmojiString`, the React components, toasts, modals, theme, settings and the countdown.
- The grid display (`src/GuessDisplay.tsx:20`) also paints a flagless cell of a row the cursor has passed as a no-match; that component is not part of this model, so a cleared excess copy shows as `""` here.
- The React timing of the disable flags: `src/App.tsx:110-121` recomputes them in an effect; the model evaluates them as functions of the current game (`BackspaceDisabled`, `SubmitDisabled`).
- JavaScript string details: UTF-16 length, surrogate pairs, and `toLocaleLowerCase` in the dictionary check (folded into `isWord`). A letter is one `char`, and the regular expression is a one-letter count.
- App.Select: requires a well-formed game (6 rows of 5 cells, the cursor row laid out as typing leaves it). Every game reached from the default game is well formed (`AppFacts.PlayKeepsInvariant`). On other games the source can write outside the row.
- App.Backspace: requires a well-formed game, for the same reason as `App.Select`.
- App.Submit: requires the 6-by-5 grid and the six win buckets. Both hold for every game and record reached from the defaults.
- App.ValidateWord: requires the cursor row inside the grid, a guess no longer than the row, and the win bucket of the row. `App.SubmitScoresWord` shows that an enabled submit meets all three.
- GameLogs.UpdateWinCount requires the bucket for the guess count to exist; the source would store NaN for a missing bucket.
- The letter loop is modelled as two folds, one for the row and one for the keyboard. `Evaluator.FoldsAreTheLoop` records that they advance as the single loop of the source does, which holds by definition.
- `handleDifficultyChange` and `handleStatisticsReset` (`src/App.tsx:401-411`): they only combine `ResetGameLog` and `ResetGameState` with storage and UI state.

=== FILE: app.dfy ===
/**
 The game controller: typing a letter, erasing one, submitting the row
 (hard-mode hint rule, dictionary check, repeat check, letter loop, then
 win, loss or next row), and revealing the solution.

 A `Session` bundles what the controller reads: the saved game, the
 statistics record, the solution and the difficulty. Each handler maps a
 session to the next one and a `Notice` naming what the player is told.
 Dictionary membership is a parameter; choosing the solution at random is
 not part of this model.
 */
module App {
  import opened Letters
  import opened Text
  import opened Util
  import opened GameLogs
  import opened GameStates
  import opened Evaluator

  datatype Session = Session(state: GameState, log: GameLog, solution: string, difficulty: Difficulty)

  /** What the player is told after a handler runs. */
  datatype Notice =
    | Ignored         // the control is disabled or its guard fails
    | NoRow           // the cursor row is past the grid: the handler throws before changing anything
    | Entered         // a letter was typed into the row
    | Erased          // the last letter of the row was removed
    | LetterDisabled  // under the harder difficulty, a letter known to be absent was refused
    | MissingHints    // a hard-mode guess left out a revealed letter
    | NotAWord        // the dictionary rejected the guess
    | AlreadyTried    // an earlier row spells the same word
    | NextRow         // the guess was scored and the cursor moved to the next row
    | Won             // the guess is the solution
    | Lost            // the last row was used without finding the solution

  datatype Reply = Reply(session: Session, notice: Notice)

  /** Hide the error banner and empty its message. */
  function ClearError(st: GameState): (r: GameState)
    ensures !r.showError && r.errorMessage == ""
    ensures r == st.(showError := false, errorMessage := "")
  {
    st.(errorMessage := "", showError := false)
  }

  /** A cell holding one letter. */
  predicate Filled(l: LetterState) {
    |l.letter| == 1
  }

  /** A cell holding one letter with every flag cleared, as typing leaves it. */
  predicate IsTyped(l: LetterState) {
    |l.letter| == 1 && l == Typed(l.letter[0])
  }

  /** The first `n` cells of `row` hold one letter each. */
  predicate FilledUpTo(row: seq<LetterState>, n: nat) {
    forall k :: 0 <= k < n && k < |row| ==> Filled(row[k])
  }

  /** The first `n` cells of `row` are freshly typed letters. */
  predicate TypedUpTo(row: seq<LetterState>, n: nat) {
    forall k :: 0 <= k < n && k < |row| ==> IsTyped(row[k])
  }

  /** The cells of `row` from `n` on are blank. */
  predicate BlankFrom(row: seq<LetterState>, n: nat) {
    forall k :: n <= k < |row| ==> row[k] == DefaultLetter
  }

  /** The layout of the cursor row: typed cells before the cursor (scored
      cells once the game is won), blank cells from the cursor on. */
  predicate CursorRowOk(row: seq<LetterState>, col: nat, won: bool) {
    col <= |row| &&
    (if won then FilledUpTo(row, col) else TypedUpTo(row, col)) &&
    BlankFrom(row, col)
  }

  /** A grid of 6 rows of 5 cells. */
  predicate GridShape(st: GameState) {
    |st.guessMap| == GuessRows &&
    forall r :: 0 <= r < GuessRows ==> |st.guessMap[r]| == WordLength
  }

  /** The cursor leaves the grid only on a loss, and sits at the end of
      its row once the game is won. */
  predicate CursorPlaced(st: GameState) {
    var p := st.cursorPointer;
    p.row <= GuessRows &&
    (p.row == GuessRows ==> st.showFail && p.col == 0) &&
    (st.showSuccess ==> p.row < GuessRows && p.col == WordLength)
  }

  /** Rows above the cursor are filled, rows below it are blank, and the
      cursor row is laid out as `CursorRowOk` says. */
  predicate RowsLaidOut(st: GameState) {
    var p := st.cursorPointer;
    (forall r :: 0 <= r < p.row && r < |st.guessMap| ==> FilledUpTo(st.guessMap[r], WordLength)) &&
    (forall r :: p.row < r < |st.guessMap| ==> BlankFrom(st.guessMap[r], 0)) &&
    (p.row < |st.guessMap| ==> CursorRowOk(st.guessMap[p.row], p.col, st.showSuccess))
  }

  /** The shape every state reached from the default game keeps. */
  predicate WellFormed(st: GameState) {
    GridShape(st) && CursorPlaced(st) && RowsLaidOut(st)
  }

  /** In a well-formed state, a blank cell in the cursor row means the
      cursor has not reached the end of the row. */
  lemma BlankCellMeansRoom(st: GameState)
    requires WellFormed(st) && st.cursorPointer.row < GuessRows
    requires exists j :: 0 <= j < WordLength && Blank(st.guessMap[st.cursorPointer.row][j])
    ensures st.cursorPointer.col < WordLength
  {
    var row := st.guessMap[st.cursorPointer.row];
    var j :| 0 <= j < WordLength && Blank(row[j]);
    assert CursorRowOk(row, st.cursorPointer.col, st.showSuccess);
    assert j >= st.cursorPointer.col;
  }

  /** In a well-formed state, a letter in the cursor row means the cursor
      is past the start of the row. */
  lemma LetterMeansCursorMoved(st: GameState)
    requires WellFormed(st) && st.cursorPointer.row < GuessRows
    requires exists j :: 0 <= j < WordLength && !Blank(st.guessMap[st.cursorPointer.row][j])
    ensures st.cursorPointer.col > 0
  {
    var row := st.guessMap[st.cursorPointer.row];
    var j :| 0 <= j < WordLength && !Blank(row[j]);
    assert CursorRowOk(row, st.cursorPointer.col, st.showSuccess);
    assert BlankFrom(row, st.cursorPointer.col);
  }

  /** Typed cells are filled cells. */
  lemma TypedIsFilled(row: seq<LetterState>, n: nat)
    requires TypedUpTo(row, n)
    ensures FilledUpTo(row, n)
  {
    forall k | 0 <= k < n && k < |row|
      ensures Filled(row[k])
    {
      assert IsTyped(row[k]);
    }
  }

  /** The cursor row spells one letter per cell the cursor has passed. */
  lemma CursorRowSpelling(st: GameState)
    requires WellFormed(st) && st.cursorPointer.row < GuessRows
    ensures |CursorWord(st)| == st.cursorPointer.col
    ensures forall k :: 0 <= k < st.cursorPointer.col ==>
              CursorWord(st)[k] == st.guessMap[st.cursorPointer.row][k].letter[0]
  {
    var row := st.guessMap[st.cursorPointer.row];
    var col := st.cursorPointer.col;
    assert CursorRowOk(row, col, st.showSuccess);
    if !st.showSuccess {
      TypedIsFilled(row, col);
    }
    assert FilledUpTo(row, col);
    var front := row[..col];
    var back := row[col..];
    assert row == front + back;
    SpelledAppend(front, back);
    assert AllBlank(back) by {
      assert BlankFrom(row, col);
    }
    assert forall k :: 0 <= k < |front| ==> |front[k].letter| == 1 by {
      forall k | 0 <= k < |front|
        ensures |front[k].letter| == 1
      {
        assert Filled(row[k]);
      }
    }
  }

  /** In a well-formed game the cursor row is blank exactly when the cursor
      sits at the start of the row. */
  lemma RowBlankAtStart(st: GameState)
    requires WellFormed(st) && st.cursorPointer.row < GuessRows
    ensures AllBlank(st.guessMap[st.cursorPointer.row]) <==> st.cursorPointer.col == 0
  {
    var row := st.guessMap[st.cursorPointer.row];
    assert CursorRowOk(row, st.cursorPointer.col, st.showSuccess);
    if st.cursorPointer.col == 0 {
      assert BlankFrom(row, 0);
    } else if st.showSuccess {
      assert Filled(row[0]);
    } else {
      assert IsTyped(row[0]);
    }
  }

  /** Under the harder difficulty, the first key for `c` exists and is disabled. */
  predicate LetterDisabledFor(s: Session, c: char) {
    var k := KeyIndex(s.state.letterOptions, [c]);
    s.difficulty == Harder && k >= 0 && s.state.letterOptions[k].disabled
  }

  /** Type letter `c` at the cursor. Under the harder difficulty a letter
      whose key is disabled is refused with an error message; otherwise the
      letter goes into the cursor cell when the game is still open and the
      row has a blank cell, and the cursor moves one cell right. */
  function Select(s: Session, c: char): (r: Reply)
    requires WellFormed(s.state)
    ensures r.notice in {NoRow, LetterDisabled, Entered, Ignored}
    ensures r.notice == NoRow <==> s.state.cursorPointer.row >= |s.state.guessMap|
    ensures s.state.cursorPointer.row < |s.state.guessMap| ==>
              (r.notice == LetterDisabled <==> LetterDisabledFor(s, c))
    ensures r.notice == Entered <==>
              var st := s.state;
              st.cursorPointer.row < |st.guessMap| && !LetterDisabledFor(s, c) &&
              !st.showFail && !st.showSuccess &&
              exists j :: 0 <= j < |st.guessMap[st.cursorPointer.row]| && Blank(st.guessMap[st.cursorPointer.row][j])
    ensures r.notice != Entered ==> r.session.state.guessMap == s.state.guessMap &&
                                    r.session.state.cursorPointer == s.state.cursorPointer
    ensures r.session.log == s.log && r.session.solution == s.solution && r.session.difficulty == s.difficulty
    ensures r.session.state.letterOptions == s.state.letterOptions
    ensures r.notice == Entered ==>
              var p := s.state.cursorPointer;
              !s.state.showFail && !s.state.showSuccess &&
              p.row < GuessRows && p.col < WordLength &&
              r.session.state.cursorPointer == Cursor(p.row, p.col + 1) &&
              r.session.state.guessMap == s.state.guessMap[p.row := s.state.guessMap[p.row][p.col := Typed(c)]]
    ensures r.notice == LetterDisabled ==>
              s.difficulty == Harder && r.session.state.showError &&
              r.session.state.errorMessage == [c] + " is disabled!"
    ensures r.notice in {NoRow, Ignored} ==> r.session == s
    ensures r.notice == LetterDisabled ==>
              r.session == s.(state := s.state.(showError := true, errorMessage := [c] + " is disabled!"))
    ensures r.notice == Entered ==>
              var p := s.state.cursorPointer;
              r.session == s.(state := ClearError(s.state).(
                                guessMap := s.state.guessMap[p.row := s.state.guessMap[p.row][p.col := Typed(c)]],
                                cursorPointer := Cursor(p.row, p.col + 1)))
  {
    var st := s.state;
    var key := [c];
    var isLetterDisabled := LetterDisabledFor(s, c);
    if st.cursorPointer.row >= |st.guessMap| then Reply(s, NoRow)
    else
      var p := st.cursorPointer;
      var row := st.guessMap[p.row];
      var spaceIsBlank := exists j :: 0 <= j < |row| && Blank(row[j]);
      if isLetterDisabled then
        Reply(s.(state := st.(showError := true, errorMessage := key + " is disabled!")), LetterDisabled)
      else if !(st.showFail || st.showSuccess) && spaceIsBlank then
        BlankCellMeansRoom(st);
        var next := st.(guessMap := st.guessMap[p.row := row[p.col := Typed(c)]],
                        cursorPointer := Cursor(p.row, p.col + 1));
        Reply(s.(state := ClearError(next)), Entered)
      else
        Reply(s, Ignored)
  }

  /** The backspace control is disabled once the game is over or while the
      cursor row is blank: in a well-formed game, exactly when the game is
      over or the cursor is at the start of its row. */
  function BackspaceDisabled(st: GameState): (disabled: bool)
    ensures st.showSuccess || st.showFail ==> disabled
    ensures WellFormed(st) && st.cursorPointer.row < GuessRows ==>
              (disabled <==> st.showSuccess || st.showFail || st.cursorPointer.col == 0)
  {
    var disabled := st.showSuccess || st.showFail ||
                    (st.cursorPointer.row < |st.guessMap| && AllBlank(st.guessMap[st.cursorPointer.row]));
    if WellFormed(st) && st.cursorPointer.row < GuessRows then
      RowBlankAtStart(st);
      disabled
    else
      disabled
  }

  /** Erase the cell before the cursor and move the cursor back, when the
      control is enabled and the row holds a letter. The error banner is
      cleared in every case. */
  function Backspace(s: Session): (r: Reply)
    requires WellFormed(s.state)
    ensures r.notice in {Erased, Ignored}
    ensures r.notice == Erased <==>
              var st := s.state;
              !BackspaceDisabled(st) && st.cursorPointer.row < |st.guessMap| &&
              exists j :: 0 <= j < |st.guessMap[st.cursorPointer.row]| && !Blank(st.guessMap[st.cursorPointer.row][j])
    ensures r.session == s.(state := r.session.state)
    ensures !r.session.state.showError && r.session.state.errorMessage == ""
    ensures r.notice == Ignored ==>
              r.session.state == ClearError(s.state)
    ensures r.notice == Erased ==>
              var p := s.state.cursorPointer;
              !BackspaceDisabled(s.state) && p.row < GuessRows && 0 < p.col &&
              r.session.state.cursorPointer == Cursor(p.row, p.col - 1) &&
              r.session.state.guessMap == s.state.guessMap[p.row := s.state.guessMap[p.row][p.col - 1 := DefaultLetter]]
    ensures r.notice == Erased ==>
              var p := s.state.cursorPointer;
              r.session.state == ClearError(s.state).(
                                   guessMap := s.state.guessMap[p.row := s.state.guessMap[p.row][p.col - 1 := DefaultLetter]],
                                   cursorPointer := Cursor(p.row, p.col - 1))
  {
    var st := s.state;
    var p := st.cursorPointer;
    if !BackspaceDisabled(st) && p.row < |st.guessMap| &&
       exists j :: 0 <= j < |st.guessMap[p.row]| && !Blank(st.guessMap[p.row][j]) then
      LetterMeansCursorMoved(st);
      var row := st.guessMap[p.row];
      var next := st.(guessMap := st.guessMap[p.row := row[p.col - 1 := DefaultLetter]],
                      cursorPointer := Cursor(p.row, p.col - 1));
      Reply(s.(state := ClearError(next)), Erased)
    else
      Reply(s.(state := ClearError(st)), Ignored)
  }

  /** The submit control is disabled once the game is over or while the
      cursor row does not spell a five-letter word: in a well-formed game,
      exactly when the game is over or the cursor has not reached the end
      of its row. */
  function SubmitDisabled(st: GameState): (disabled: bool)
    ensures !disabled ==> !st.showSuccess && !st.showFail && st.cursorPointer.row < |st.guessMap|
    ensures WellFormed(st) && st.cursorPointer.row < GuessRows ==>
              (disabled <==> st.showSuccess || st.showFail || st.cursorPointer.col != WordLength)
  {
    var disabled := st.showSuccess || st.showFail ||
                    st.cursorPointer.row >= |st.guessMap| ||
                    |CursorWord(st)| != WordLength;
    if WellFormed(st) && st.cursorPointer.row < GuessRows then
      CursorRowSpelling(st);
      disabled
    else
      disabled
  }

  /** An enabled submit in a well-formed state reads a five-letter word
      from a grid row, whose win bucket exists. */
  lemma SubmittedRowFits(st: GameState, log: GameLog)
    requires GridShape(st) && !SubmitDisabled(st)
    requires Buckets <= log.winGuessCountDistribution.Keys
    ensures st.cursorPointer.row < |st.guessMap| == GuessRows
    ensures |CursorWord(st)| == |st.guessMap[st.cursorPointer.row]|
    ensures st.cursorPointer.row + 1 in log.winGuessCountDistribution
  {
    assert st.cursorPointer.row + 1 in Buckets;
  }

  /** The word spelled by the cursor row, "" once the cursor has left the
      grid. A filled row spells one letter per cell, in order. */
  function CursorWord(st: GameState): (w: string)
    ensures st.cursorPointer.row >= |st.guessMap| ==> w == ""
    ensures st.cursorPointer.row < |st.guessMap| ==>
              var row := st.guessMap[st.cursorPointer.row];
              FilledUpTo(row, |row|) ==>
                |w| == |row| && forall k :: 0 <= k < |row| ==> w[k] == row[k].letter[0]
  {
    if st.cursorPointer.row < |st.guessMap| then
      var row := st.guessMap[st.cursorPointer.row];
      assert FilledUpTo(row, |row|) ==> forall k :: 0 <= k < |row| ==> |row[k].letter| == 1 by {
        if FilledUpTo(row, |row|) {
          forall k | 0 <= k < |row|
            ensures |row[k].letter| == 1
          {
            assert Filled(row[k]);
          }
        }
      }
      Spelled(row)
    else ""
  }

  /** Every key flagged with a contain or position match has its letter
      included in `word`. For one-letter keys that is presence of the
      letter anywhere in the word, not at any particular position. */
  function ContainsAllHints(word: string, keys: seq<LetterState>): (ok: bool)
    ensures (forall j :: 0 <= j < |keys| ==> |keys[j].letter| == 1) ==>
              (ok <==> forall j :: 0 <= j < |keys| && (keys[j].containMatch || keys[j].positionMatch) ==>
                                     keys[j].letter[0] in word)
  {
    var ok := forall j :: 0 <= j < |keys| && (keys[j].containMatch || keys[j].positionMatch) ==>
                Includes(word, keys[j].letter);
    assert (forall j :: 0 <= j < |keys| ==> |keys[j].letter| == 1) ==>
             (ok <==> forall j :: 0 <= j < |keys| && (keys[j].containMatch || keys[j].positionMatch) ==>
                                    keys[j].letter[0] in word) by {
      if forall j :: 0 <= j < |keys| ==> |keys[j].letter| == 1 {
        forall j | 0 <= j < |keys|
          ensures Includes(word, keys[j].letter) <==> keys[j].letter[0] in word
        {
          IncludesLetter(word, keys[j].letter);
        }
      }
    }
    ok
  }

  /** Score a dictionary word typed in the cursor row. A repeat of an
      earlier row is refused with nothing changed. Otherwise one guess is
      counted, the letter loop marks the row and the keyboard, and then:
      the solution wins and leaves the cursor where it is; any other word
      moves the cursor to the start of the next row, and on the last row it
      also loses the game. */
  function ValidateWord(s: Session, guess: string): (r: Reply)
    requires s.state.cursorPointer.row < |s.state.guessMap|
    requires |guess| <= |s.state.guessMap[s.state.cursorPointer.row]|
    requires s.state.cursorPointer.row + 1 in s.log.winGuessCountDistribution
    ensures r.notice in {AlreadyTried, NextRow, Won, Lost}
    ensures r.session.solution == s.solution && r.session.difficulty == s.difficulty
    ensures var st := s.state;
            PreviousGuess(guess, st.guessMap, st.cursorPointer.row) <==> r.notice == AlreadyTried
    ensures r.notice == AlreadyTried ==> r.session == s
    ensures r.notice != AlreadyTried ==> (r.notice == Won <==> guess == s.solution)
  {
    var st := s.state;
    var row := st.cursorPointer.row;
    if PreviousGuess(guess, st.guessMap, row) then Reply(s, AlreadyTried)
    else
      var log1 := UpdateGuessCount(s.log);
      var b := Evaluate(s.solution, guess, s.difficulty, Board(st.guessMap[row], st.letterOptions));
      var st1 := st.(guessMap := st.guessMap[row := b.row], letterOptions := b.keyboard);
      if guess == s.solution then
        Reply(s.(state := ClearError(st1.(showSuccess := true)), log := UpdateWinCount(log1, guess, row + 1)), Won)
      else
        var st2 := if row < |st.guessMap| then ClearError(st1.(cursorPointer := Cursor(row + 1, 0))) else st1;
        if row == |st.guessMap| - 1 then
          Reply(s.(state := ClearError(st2.(showFail := true)), log := UpdateLossCount(log1)), Lost)
        else
          Reply(s.(state := st2, log := log1), NextRow)
  }

  /** A scored guess: the cursor row and the keyboard become the letter
      loop's result, the other rows stay, one guess is counted and the
      error banner is cleared. */
  lemma ScoredBoard(s: Session, guess: string)
    requires s.state.cursorPointer.row < |s.state.guessMap|
    requires |guess| <= |s.state.guessMap[s.state.cursorPointer.row]|
    requires s.state.cursorPointer.row + 1 in s.log.winGuessCountDistribution
    requires ValidateWord(s, guess).notice != AlreadyTried
    ensures var st := s.state;
            var p := st.cursorPointer;
            var b := Evaluate(s.solution, guess, s.difficulty, Board(st.guessMap[p.row], st.letterOptions));
            var out := ValidateWord(s, guess).session.state;
            && out.guessMap == st.guessMap[p.row := b.row]
            && out.letterOptions == b.keyboard
            && out.puzzleNumber == st.puzzleNumber
            && !out.showError && out.errorMessage == ""
            && ValidateWord(s, guess).session.log.guessCount == s.log.guessCount + 1
  {
  }

  /** Guessing the solution wins: the cursor stays on the winning row, the
      failure flag is untouched, and the record counts one guess and then a
      win in `row + 1` guesses. */
  lemma ScoredWin(s: Session, guess: string)
    requires s.state.cursorPointer.row < |s.state.guessMap|
    requires |guess| <= |s.state.guessMap[s.state.cursorPointer.row]|
    requires s.state.cursorPointer.row + 1 in s.log.winGuessCountDistribution
    requires ValidateWord(s, guess).notice == Won
    ensures guess == s.solution
    ensures var out := ValidateWord(s, guess).session.state;
            out.showSuccess && out.showFail == s.state.showFail &&
            out.cursorPointer == s.state.cursorPointer
    ensures ValidateWord(s, guess).session.log ==
              UpdateWinCount(UpdateGuessCount(s.log), guess, s.state.cursorPointer.row + 1)
  {
  }

  /** Any other scored word moves the cursor to the start of the next row.
      On the last row the game is lost and the record counts one guess and
      a loss; on an earlier row only the guess is counted. */
  lemma ScoredMiss(s: Session, guess: string)
    requires s.state.cursorPointer.row < |s.state.guessMap|
    requires |guess| <= |s.state.guessMap[s.state.cursorPointer.row]|
    requires s.state.cursorPointer.row + 1 in s.log.winGuessCountDistribution
    requires ValidateWord(s, guess).notice in {NextRow, Lost}
    ensures guess != s.solution
    ensures var st := s.state;
            var out := ValidateWord(s, guess).session.state;
            out.cursorPointer == Cursor(st.cursorPointer.row + 1, 0) &&
            out.showSuccess == st.showSuccess &&
            (ValidateWord(s, guess).notice == Lost <==> st.cursorPointer.row == |st.guessMap| - 1)
    ensures ValidateWord(s, guess).notice == Lost ==>
              ValidateWord(s, guess).session.state.showFail &&
              ValidateWord(s, guess).session.log == UpdateLossCount(UpdateGuessCount(s.log))
    ensures ValidateWord(s, guess).notice == NextRow ==>
              ValidateWord(s, guess).session.state.showFail == s.state.showFail &&
              ValidateWord(s, guess).session.log == UpdateGuessCount(s.log)
  {
  }

  /** Press enter. Nothing happens while submit is disabled. Under the hard
      and harder difficulties a word missing a revealed letter is refused.
      A word outside the dictionary is refused and counted as invalid.
      Anything else is scored by `ValidateWord`. */
  function Submit(s: Session, isWord: string -> bool): (r: Reply)
    requires GridShape(s.state)
    requires Buckets <= s.log.winGuessCountDistribution.Keys
    ensures SubmitDisabled(s.state) <==> r.notice == Ignored
    ensures r.session.solution == s.solution && r.session.difficulty == s.difficulty
    ensures r.notice in {Ignored, MissingHints, NotAWord} ==> r.session.state == s.state
    ensures r.notice in {Ignored, MissingHints, AlreadyTried} ==> r.session == s
    ensures r.notice == MissingHints <==>
              !SubmitDisabled(s.state) && s.difficulty != Normal &&
              !ContainsAllHints(CursorWord(s.state), s.state.letterOptions)
    ensures r.notice == NotAWord <==>
              !SubmitDisabled(s.state) &&
              (s.difficulty != Normal ==> ContainsAllHints(CursorWord(s.state), s.state.letterOptions)) &&
              !isWord(CursorWord(s.state))
    ensures r.notice == NotAWord ==> r.session.log == UpdateInvalidWordCount(s.log)
    ensures r.notice !in {Ignored, MissingHints} ==>
              |CursorWord(s.state)| == WordLength &&
              (s.difficulty != Normal ==> ContainsAllHints(CursorWord(s.state), s.state.letterOptions))
    ensures r.notice !in {Ignored, MissingHints} ==> (r.notice in {AlreadyTried, NextRow, Won, Lost} <==> isWord(CursorWord(s.state)))
  {
    var st := s.state;
    if SubmitDisabled(st) then Reply(s, Ignored)
    else
      var guess := CursorWord(st);
      SubmittedRowFits(s.state, s.log);
      if s.difficulty != Normal && !ContainsAllHints(guess, st.letterOptions) then
        Reply(s, MissingHints)
      else if isWord(guess) then
        ValidateWord(s, guess)
      else
        Reply(s.(log := UpdateInvalidWordCount(s.log)), NotAWord)
  }

  /** An enabled submit of a dictionary word that passes the hint rule is
      scored by `ValidateWord` on the cursor row, which fits the grid. */
  lemma SubmitScoresWord(s: Session, isWord: string -> bool)
    requires GridShape(s.state)
    requires Buckets <= s.log.winGuessCountDistribution.Keys
    requires !SubmitDisabled(s.state) && isWord(CursorWord(s.state))
    requires s.difficulty != Normal ==> ContainsAllHints(CursorWord(s.state), s.state.letterOptions)
    ensures s.state.cursorPointer.row < |s.state.guessMap|
    ensures |CursorWord(s.state)| == |s.state.guessMap[s.state.cursorPointer.row]| == WordLength
    ensures s.state.cursorPointer.row + 1 in s.log.winGuessCountDistribution
    ensures Submit(s, isWord) == ValidateWord(s, CursorWord(s.state))
  {
    SubmittedRowFits(s.state, s.log);
  }

  /** Reveal the solution: unless the game is already over, count a
      forfeit, clear the error banner and show the failure. */
  function RevealSolution(s: Session): (r: Session)
    ensures s.state.showSuccess || s.state.showFail ==> r == s
    ensures !s.state.showSuccess && !s.state.showFail ==>
              r.state == ClearError(s.state).(showFail := true) &&
              r.log == UpdateForfeitCount(s.log) &&
              r.log.winStreak == s.log.winStreak
    ensures r.solution == s.solution && r.difficulty == s.difficulty
  {
    if s.state.showSuccess || s.state.showFail then s
    else s.(log := UpdateForfeitCount(s.log), state := ClearError(s.state).(showFail := true))
  }
}

=== FILE: app_facts.dfy ===
/**
 What the controller keeps and promises across handlers: the grid stays
 well formed, the keyboard stays truthful about the solution and the
 statistics stay consistent, whatever the player does; a scored row is
 the reference scoring of the typed word; the game is lost only on the
 last row; a win shares the number of rows used; backspace undoes a
 typed letter.
 */
module AppFacts {
  import opened Letters
  import opened Text
  import opened Util
  import opened GameLogs
  import opened GameStates
  import opened Evaluator
  import opened EvaluatorSpec
  import opened App

  // ---------------------------------------------------------------------
  // The cursor row

  /** With submit enabled, the cursor row is exactly the row the keyboard
      handler writes for the word it spells. */
  lemma SubmittedRowIsFresh(st: GameState)
    requires WellFormed(st) && !SubmitDisabled(st)
    ensures st.guessMap[st.cursorPointer.row] == FreshRow(CursorWord(st))
  {
    CursorRowSpelling(st);
    var row := st.guessMap[st.cursorPointer.row];
    var typed := FreshRow(CursorWord(st));
    assert CursorRowOk(row, st.cursorPointer.col, false);
    assert |row| == |typed|;
    forall k | 0 <= k < |row|
      ensures row[k] == typed[k]
    {
      assert IsTyped(row[k]);
    }
  }

  // ---------------------------------------------------------------------
  // The grid stays well formed

  lemma DefaultGameWellFormed(alphabet: seq<string>)
    ensures WellFormed(DefaultGameState(alphabet))
  {
    var st := DefaultGameState(alphabet);
    assert forall r :: 0 <= r < GuessRows ==> BlankFrom(st.guessMap[r], 0);
  }

  /** A row with the letters of a filled row is filled. */
  lemma SameLettersFilled(row: seq<LetterState>, row2: seq<LetterState>)
    requires |row2| == |row| == WordLength && FilledUpTo(row, WordLength)
    requires forall k :: 0 <= k < WordLength ==> row2[k].letter == row[k].letter
    ensures FilledUpTo(row2, WordLength)
  {
    forall k | 0 <= k < WordLength
      ensures Filled(row2[k])
    {
      assert Filled(row[k]);
    }
  }

  /** Replacing the cursor row of a state with a row of the same letters
      and keeping the cursor gives a well-formed won state. */
  lemma WonShape(st: GameState, st2: GameState)
    requires WellFormed(st) && !SubmitDisabled(st)
    requires st2.cursorPointer == st.cursorPointer && st2.showSuccess
    requires |st2.guessMap| == |st.guessMap|
    requires st2.guessMap == st.guessMap[st.cursorPointer.row := st2.guessMap[st.cursorPointer.row]]
    requires |st2.guessMap[st.cursorPointer.row]| == WordLength
    requires forall k :: 0 <= k < WordLength ==>
               st2.guessMap[st.cursorPointer.row][k].letter == st.guessMap[st.cursorPointer.row][k].letter
    ensures WellFormed(st2)
  {
    CursorRowSpelling(st);
    var p := st.cursorPointer;
    assert CursorRowOk(st.guessMap[p.row], p.col, false);
    TypedIsFilled(st.guessMap[p.row], WordLength);
    SameLettersFilled(st.guessMap[p.row], st2.guessMap[p.row]);
    assert CursorRowOk(st2.guessMap[p.row], p.col, true);
  }

  /** Replacing the cursor row with a row of the same letters and moving
      the cursor to the start of the next row gives a well-formed state,
      provided leaving the grid comes with the failure flag. */
  lemma AdvanceShape(st: GameState, st2: GameState)
    requires WellFormed(st) && !SubmitDisabled(st)
    requires st2.cursorPointer == Cursor(st.cursorPointer.row + 1, 0) && !st2.showSuccess
    requires st.cursorPointer.row + 1 == GuessRows ==> st2.showFail
    requires |st2.guessMap| == |st.guessMap|
    requires st2.guessMap == st.guessMap[st.cursorPointer.row := st2.guessMap[st.cursorPointer.row]]
    requires |st2.guessMap[st.cursorPointer.row]| == WordLength
    requires forall k :: 0 <= k < WordLength ==>
               st2.guessMap[st.cursorPointer.row][k].letter == st.guessMap[st.cursorPointer.row][k].letter
    ensures WellFormed(st2)
  {
    CursorRowSpelling(st);
    var p := st.cursorPointer;
    assert CursorRowOk(st.guessMap[p.row], p.col, false);
    TypedIsFilled(st.guessMap[p.row], WordLength);
    SameLettersFilled(st.guessMap[p.row], st2.guessMap[p.row]);
    if p.row + 1 < GuessRows {
      assert BlankFrom(st2.guessMap[p.row + 1], 0);
      assert CursorRowOk(st2.guessMap[p.row + 1], 0, false);
    }
  }

  lemma SelectKeepsWellFormed(s: Session, c: char)
    requires WellFormed(s.state)
    ensures WellFormed(Select(s, c).session.state)
  {
    var r := Select(s, c);
    if r.notice == Entered {
      var st := s.state;
      var p := st.cursorPointer;
      var row := st.guessMap[p.row];
      var row2 := row[p.col := Typed(c)];
      assert CursorRowOk(row, p.col, false);
      assert TypedUpTo(row2, p.col + 1);
      assert BlankFrom(row2, p.col + 1);
      assert r.session.state.guessMap[p.row] == row2;
    }
  }

  lemma BackspaceKeepsWellFormed(s: Session)
    requires WellFormed(s.state)
    ensures WellFormed(Backspace(s).session.state)
  {
    var r := Backspace(s);
    if r.notice == Erased {
      var st := s.state;
      var p := st.cursorPointer;
      var row := st.guessMap[p.row];
      var row2 := row[p.col - 1 := DefaultLetter];
      assert CursorRowOk(row, p.col, false);
      assert TypedUpTo(row2, p.col - 1);
      assert BlankFrom(row2, p.col - 1);
      assert r.session.state.guessMap[p.row] == row2;
    }
  }

  lemma RevealKeepsWellFormed(s: Session)
    requires WellFormed(s.state)
    ensures WellFormed(RevealSolution(s).state)
  {
  }

  /** Scoring the word of an enabled cursor row keeps the grid well formed. */
  lemma ScoredKeepsWellFormed(s: Session, guess: string)
    requires WellFormed(s.state) && !SubmitDisabled(s.state) && guess == CursorWord(s.state)
    requires |guess| <= |s.state.guessMap[s.state.cursorPointer.row]|
    requires s.state.cursorPointer.row + 1 in s.log.winGuessCountDistribution
    ensures WellFormed(ValidateWord(s, guess).session.state)
  {
    ScoredWonKeepsWellFormed(s, guess);
    ScoredMissKeepsWellFormed(s, guess);
  }

  lemma ScoredWonKeepsWellFormed(s: Session, guess: string)
    requires WellFormed(s.state) && !SubmitDisabled(s.state) && guess == CursorWord(s.state)
    requires |guess| <= |s.state.guessMap[s.state.cursorPointer.row]|
    requires s.state.cursorPointer.row + 1 in s.log.winGuessCountDistribution
    ensures ValidateWord(s, guess).notice == Won ==> WellFormed(ValidateWord(s, guess).session.state)
  {
    var r := ValidateWord(s, guess);
    if r.notice == Won {
      ScoredBoard(s, guess);
      ScoredWin(s, guess);
      WonShape(s.state, r.session.state);
    }
  }

  lemma ScoredMissKeepsWellFormed(s: Session, guess: string)
    requires WellFormed(s.state) && !SubmitDisabled(s.state) && guess == CursorWord(s.state)
    requires |guess| <= |s.state.guessMap[s.state.cursorPointer.row]|
    requires s.state.cursorPointer.row + 1 in s.log.winGuessCountDistribution
    ensures ValidateWord(s, guess).notice in {NextRow, Lost} ==> WellFormed(ValidateWord(s, guess).session.state)
  {
    var r := ValidateWord(s, guess);
    if r.notice in {NextRow, Lost} {
      ScoredBoard(s, guess);
      ScoredMiss(s, guess);
      AdvanceShape(s.state, r.session.state);
    }
  }

  lemma SubmitKeepsWellFormed(s: Session, isWord: string -> bool)
    requires WellFormed(s.state)
    requires Buckets <= s.log.winGuessCountDistribution.Keys
    ensures WellFormed(Submit(s, isWord).session.state)
  {
    if Submit(s, isWord).notice in {AlreadyTried, NextRow, Won, Lost} {
      SubmitScoresWord(s, isWord);
      ScoredKeepsWellFormed(s, CursorWord(s.state));
    }
  }

  // ---------------------------------------------------------------------
  // The session invariant

  /** What every reachable session satisfies: a well-formed grid, a
      keyboard whose flags are true of the solution, and a consistent
      statistics record. */
  predicate SessionInvariant(s: Session) {
    WellFormed(s.state) && KeyboardSound(s.solution, s.state.letterOptions) && LogInvariant(s.log)
  }

  /** The new keyboard has no flag set, so it is sound for any solution. */
  lemma DefaultKeyboardSound(alphabet: seq<string>, solution: string)
    ensures KeyboardSound(solution, DefaultLetterOptions(alphabet))
  {
  }

  /** A new game with a new record satisfies the invariant, whatever the
      alphabet, solution and difficulty. */
  lemma DefaultSessionInvariant(alphabet: seq<string>, solution: string, difficulty: Difficulty)
    ensures SessionInvariant(Session(DefaultGameState(alphabet), DefaultGameLog, solution, difficulty))
  {
    DefaultGameWellFormed(alphabet);
    DefaultKeyboardSound(alphabet, solution);
    DefaultSatisfiesInvariant();
  }

  lemma SelectKeepsInvariant(s: Session, c: char)
    requires SessionInvariant(s)
    ensures SessionInvariant(Select(s, c).session)
  {
    SelectKeepsWellFormed(s, c);
  }

  lemma BackspaceKeepsInvariant(s: Session)
    requires SessionInvariant(s)
    ensures SessionInvariant(Backspace(s).session)
  {
    BackspaceKeepsWellFormed(s);
  }

  lemma RevealKeepsInvariant(s: Session)
    requires SessionInvariant(s)
    ensures SessionInvariant(RevealSolution(s))
  {
    RevealKeepsWellFormed(s);
    if !s.state.showSuccess && !s.state.showFail {
      assert RevealSolution(s).log == Apply(s.log, Forfeit);
    }
  }

  /** Scoring the word of an enabled cursor row keeps the keyboard sound. */
  lemma ScoredKeepsSound(s: Session, guess: string)
    requires SessionInvariant(s) && !SubmitDisabled(s.state) && guess == CursorWord(s.state)
    requires |guess| <= |s.state.guessMap[s.state.cursorPointer.row]|
    requires s.state.cursorPointer.row + 1 in s.log.winGuessCountDistribution
    ensures KeyboardSound(s.solution, ValidateWord(s, guess).session.state.letterOptions)
  {
    if ValidateWord(s, guess).notice != AlreadyTried {
      var st := s.state;
      ScoredBoard(s, guess);
      EvaluateKeepsKeyboardSound(s.solution, guess, s.difficulty,
                                 Board(st.guessMap[st.cursorPointer.row], st.letterOptions));
    }
  }

  /** Scoring the word of an enabled cursor row keeps the record consistent. */
  lemma ScoredKeepsLog(s: Session, guess: string)
    requires SessionInvariant(s) && !SubmitDisabled(s.state) && guess == CursorWord(s.state)
    requires |guess| <= |s.state.guessMap[s.state.cursorPointer.row]|
    requires s.state.cursorPointer.row + 1 in s.log.winGuessCountDistribution
    ensures LogInvariant(ValidateWord(s, guess).session.log)
  {
    var r := ValidateWord(s, guess);
    var row := s.state.cursorPointer.row;
    if r.notice == Won {
      ScoredWin(s, guess);
      WinKeepsInvariant(s.log, guess, row + 1);
    } else if r.notice != AlreadyTried {
      ScoredMiss(s, guess);
      MissKeepsInvariant(s.log);
    }
  }

  lemma SubmitKeepsInvariant(s: Session, isWord: string -> bool)
    requires SessionInvariant(s)
    ensures SessionInvariant(Submit(s, isWord).session)
  {
    SubmitKeepsWellFormed(s, isWord);
    var r := Submit(s, isWord);
    if r.notice == NotAWord {
      assert r.session.log == Apply(s.log, InvalidWord);
    } else if r.notice in {AlreadyTried, NextRow, Won, Lost} {
      SubmitScoresWord(s, isWord);
      ScoredKeepsSound(s, CursorWord(s.state));
      ScoredKeepsLog(s, CursorWord(s.state));
    }
  }

  // ---------------------------------------------------------------------
  // Whole games

  /** One player action. */
  datatype Action = Press(c: char) | Erase | Enter | Reveal

  /** One action applied to a session that satisfies the invariant. */
  function Act(s: Session, a: Action, isWord: string -> bool): (r: Session)
    requires SessionInvariant(s)
    ensures SessionInvariant(r)
    ensures r.solution == s.solution && r.difficulty == s.difficulty
  {
    match a
    case Press(c) => SelectKeepsInvariant(s, c); Select(s, c).session
    case Erase => BackspaceKeepsInvariant(s); Backspace(s).session
    case Enter => SubmitKeepsInvariant(s, isWord); Submit(s, isWord).session
    case Reveal => RevealKeepsInvariant(s); RevealSolution(s)
  }

  /** A sequence of actions, oldest first. */
  function Play(s: Session, actions: seq<Action>, isWord: string -> bool): Session
    requires SessionInvariant(s)
    decreases |actions|
  {
    if |actions| == 0 then s else Play(Act(s, actions[0], isWord), actions[1..], isWord)
  }

  /** Any game played from a new session keeps the invariant: the grid
      keeps its shape, no key ever shows a flag that is false of the
      solution, and games played equal wins plus losses plus forfeits. */
  lemma {:induction false} PlayKeepsInvariant(s: Session, actions: seq<Action>, isWord: string -> bool)
    requires SessionInvariant(s)
    ensures SessionInvariant(Play(s, actions, isWord))
    ensures var log := Play(s, actions, isWord).log;
            log.gamesPlayed == log.winCount + log.lossCount + log.forfeitCount
    decreases |actions|
  {
    if |actions| > 0 {
      PlayKeepsInvariant(Act(s, actions[0], isWord), actions[1..], isWord);
    }
  }

  // ---------------------------------------------------------------------
  // Outcomes of a submitted guess

  /** The row scored for the word of an enabled cursor row is the
      reference scoring of that word; the other rows are untouched. */
  lemma ScoredRowExpected(s: Session, guess: string)
    requires GridShape(s.state) && s.state.cursorPointer.row < |s.state.guessMap|
    requires s.state.guessMap[s.state.cursorPointer.row] == FreshRow(guess)
    requires s.state.cursorPointer.row + 1 in s.log.winGuessCountDistribution
    requires ValidateWord(s, guess).notice != AlreadyTried
    ensures var st2 := ValidateWord(s, guess).session.state;
            var p := s.state.cursorPointer;
            |st2.guessMap| == |s.state.guessMap| &&
            st2.guessMap[p.row] == ExpectedRow(s.solution, guess) &&
            forall q :: 0 <= q < |st2.guessMap| && q != p.row ==> st2.guessMap[q] == s.state.guessMap[q]
  {
    ScoredBoard(s, guess);
    EvaluateFreshRow(s.solution, guess, s.difficulty, s.state.letterOptions);
  }

  /** A submitted row that gets scored ends up as the reference scoring of
      the word typed in it. */
  lemma ScoredRowIsExpected(s: Session, isWord: string -> bool)
    requires WellFormed(s.state)
    requires Buckets <= s.log.winGuessCountDistribution.Keys
    requires Submit(s, isWord).notice in {NextRow, Won, Lost}
    ensures var st2 := Submit(s, isWord).session.state;
            s.state.cursorPointer.row < |st2.guessMap| &&
            st2.guessMap[s.state.cursorPointer.row] == ExpectedRow(s.solution, CursorWord(s.state))
  {
    SubmitScoresWord(s, isWord);
    SubmittedRowIsFresh(s.state);
    ScoredRowExpected(s, CursorWord(s.state));
  }

  /** A game is lost only by a wrong guess on the last row; the cursor then
      sits past the grid. */
  lemma LossOnlyOnLastRow(s: Session, isWord: string -> bool)
    requires WellFormed(s.state)
    requires Buckets <= s.log.winGuessCountDistribution.Keys
    requires Submit(s, isWord).notice == Lost
    ensures s.state.cursorPointer.row == GuessRows - 1
    ensures CursorWord(s.state) != s.solution
    ensures var st2 := Submit(s, isWord).session.state;
            st2.showFail && !st2.showSuccess && st2.cursorPointer == Cursor(GuessRows, 0)
  {
    SubmitScoresWord(s, isWord);
    ScoredMiss(s, CursorWord(s.state));
  }

  /** A game is won only by submitting the solution; the cursor stays on
      the winning row. */
  lemma WinIsSolution(s: Session, isWord: string -> bool)
    requires WellFormed(s.state)
    requires Buckets <= s.log.winGuessCountDistribution.Keys
    requires Submit(s, isWord).notice == Won
    ensures CursorWord(s.state) == s.solution
    ensures Submit(s, isWord).session.state.cursorPointer == s.state.cursorPointer
  {
    SubmitScoresWord(s, isWord);
    ScoredWin(s, CursorWord(s.state));
  }

  /** A scored submission that does not win was not the solution: together
      with the lemma above, a scored guess wins exactly when it is the
      solution. */
  lemma MissIsNotSolution(s: Session, isWord: string -> bool)
    requires WellFormed(s.state)
    requires Buckets <= s.log.winGuessCountDistribution.Keys
    requires Submit(s, isWord).notice in {NextRow, Lost}
    ensures CursorWord(s.state) != s.solution
  {
    SubmitScoresWord(s, isWord);
    ScoredMiss(s, CursorWord(s.state));
  }

  /** Under the hard difficulties every key the player has seen hinted in
      a sound keyboard has its letter in the accepted word. */
  lemma HardModeUsesHints(s: Session, isWord: string -> bool, j: nat)
    requires SessionInvariant(s)
    requires Submit(s, isWord).notice in {AlreadyTried, NextRow, Won, Lost}
    requires s.difficulty != Normal
    requires j < |s.state.letterOptions|
    requires s.state.letterOptions[j].containMatch || s.state.letterOptions[j].positionMatch
    ensures |s.state.letterOptions[j].letter| == 1
    ensures s.state.letterOptions[j].letter[0] in CursorWord(s.state)
  {
    assert KeySound(s.solution, s.state.letterOptions[j]);
    IncludesLetter(CursorWord(s.state), s.state.letterOptions[j].letter);
  }

  // ---------------------------------------------------------------------
  // Sharing a won game

  /** Rows that are non-blank up to `m` and blank after it keep exactly the
      first `m`. */
  lemma {:induction false} KeptRowsPrefix(rows: seq<seq<LetterState>>, m: nat)
    requires m <= |rows|
    requires forall k :: 0 <= k < m ==> !AllBlank(rows[k])
    requires forall k :: m <= k < |rows| ==> AllBlank(rows[k])
    ensures KeptRows(rows) == rows[..m]
    decreases |rows|
  {
    if |rows| == m {
      assert rows[..m] == rows;
    } else {
      var front := rows[..|rows| - 1];
      assert AllBlank(rows[|rows| - 1]);
      KeptRowsPrefix(front, m);
      assert front[..m] == rows[..m];
    }
  }

  /** A well-formed won grid keeps exactly its rows up to the cursor row. */
  lemma WonGridKeptRows(st: GameState)
    requires WellFormed(st) && st.showSuccess
    ensures KeptRows(st.guessMap) == st.guessMap[..st.cursorPointer.row + 1]
  {
    var p := st.cursorPointer;
    forall k | 0 <= k < p.row + 1
      ensures !AllBlank(st.guessMap[k])
    {
      if k < p.row {
        assert FilledUpTo(st.guessMap[k], WordLength);
      } else {
        assert CursorRowOk(st.guessMap[k], p.col, true);
      }
      assert Filled(st.guessMap[k][0]);
    }
    forall k | p.row + 1 <= k < |st.guessMap|
      ensures AllBlank(st.guessMap[k])
    {
      assert BlankFrom(st.guessMap[k], 0);
    }
    KeptRowsPrefix(st.guessMap, p.row + 1);
  }

  /** After a win on row `r` (counting from 0) the share text keeps the
      first `r + 1` rows and its header gives the score `r + 1`. */
  lemma WinShareScore(s: Session, isWord: string -> bool)
    requires WellFormed(s.state)
    requires Buckets <= s.log.winGuessCountDistribution.Keys
    requires Submit(s, isWord).notice == Won
    ensures var st2 := Submit(s, isWord).session.state;
            var used := s.state.cursorPointer.row + 1;
            KeptRows(st2.guessMap) == st2.guessMap[..used] &&
            GenerateShareText(st2.guessMap, st2.puzzleNumber, false)[..|ShareHeader(st2.puzzleNumber, NatToString(used))|]
              == ShareHeader(st2.puzzleNumber, NatToString(used))
  {
    SubmitKeepsWellFormed(s, isWord);
    SubmitScoresWord(s, isWord);
    ScoredWin(s, CursorWord(s.state));
    WonGridKeptRows(Submit(s, isWord).session.state);
  }

  // ---------------------------------------------------------------------
  // Typing and erasing

  /** Backspace right after a typed letter erases it: the grid and the
      cursor are as before the letter. */
  lemma BackspaceUndoesSelect(s: Session, c: char)
    requires WellFormed(s.state)
    requires Select(s, c).notice == Entered
    ensures var s2 := Select(s, c).session;
            WellFormed(s2.state) &&
            Backspace(s2).notice == Erased &&
            Backspace(s2).session.state.guessMap == s.state.guessMap &&
            Backspace(s2).session.state.cursorPointer == s.state.cursorPointer
  {
    SelectKeepsWellFormed(s, c);
    var st := s.state;
    var p := st.cursorPointer;
    var s2 := Select(s, c).session;
    assert CursorRowOk(st.guessMap[p.row], p.col, false);
    assert st.guessMap[p.row][p.col] == DefaultLetter;
    assert !Blank(s2.state.guessMap[p.row][p.col]);
    assert !AllBlank(s2.state.guessMap[p.row]);
    assert s2.state.guessMap[p.row][p.col := DefaultLetter] == st.guessMap[p.row];
  }

  /** Typing again the letter just erased restores the grid and the cursor,
      unless the harder difficulty refuses that letter. */
  lemma SelectUndoesBackspace(s: Session)
    requires WellFormed(s.state)
    requires Backspace(s).notice == Erased
    ensures var st := s.state;
            var p := st.cursorPointer;
            var s2 := Backspace(s).session;
            var c := st.guessMap[p.row][p.col - 1].letter[0];
            WellFormed(s2.state) &&
            (Select(s2, c).notice == Entered || Select(s2, c).notice == LetterDisabled) &&
            (Select(s2, c).notice == Entered ==>
               Select(s2, c).session.state.guessMap == st.guessMap &&
               Select(s2, c).session.state.cursorPointer == p)
  {
    BackspaceKeepsWellFormed(s);
    var st := s.state;
    var p := st.cursorPointer;
    var s2 := Backspace(s).session;
    assert CursorRowOk(st.guessMap[p.row], p.col, false);
    var cell := st.guessMap[p.row][p.col - 1];
    assert IsTyped(cell);
    var c := cell.letter[0];
    assert Blank(s2.state.guessMap[p.row][p.col - 1]);
    assert s2.state.guessMap[p.row][p.col - 1 := Typed(c)] == st.guessMap[p.row];
  }
}

=== FILE: evaluator.dfy ===
/**
 The guess evaluator of `validateWord`: for every index of the guess, left
 to right, mark the row cell and the keyboard key of that letter, then
 apply the duplicate-letter correction, which may reach back to earlier
 cells of the same row.

 The source mutates the row and the keyboard in place; here each step is
 a pure function from one `Board` to the next, and the whole evaluation
 is the fold of the steps over indices 0 .. |guess| - 1.
 */
module Evaluator {
  import opened Letters
  import opened Text

  /** The current guess row together with the keyboard. */
  datatype Board = Board(row: seq<LetterState>, keyboard: seq<LetterState>)

  /** Index of the first keyboard entry whose letter is `key`, or -1 when
      there is none (`letterOptions.find`). */
  function KeyIndex(keyboard: seq<LetterState>, key: string): (k: int)
    ensures -1 <= k < |keyboard|
    ensures k == -1 <==> forall j :: 0 <= j < |keyboard| ==> keyboard[j].letter != key
    ensures 0 <= k ==> keyboard[k].letter == key &&
                       forall j :: 0 <= j < k ==> keyboard[j].letter != key
  {
    if |keyboard| == 0 then -1
    else if keyboard[0].letter == key then 0
    else
      var k := KeyIndex(keyboard[1..], key);
      if k < 0 then -1 else k + 1
  }

  /** The lookup depends on the letters of the keyboard only. */
  lemma {:induction false} KeyIndexLetters(a: seq<LetterState>, b: seq<LetterState>, key: string)
    requires |a| == |b|
    requires forall j :: 0 <= j < |a| ==> a[j].letter == b[j].letter
    ensures KeyIndex(a, key) == KeyIndex(b, key)
  {
    if |a| > 0 && a[0].letter != key {
      KeyIndexLetters(a[1..], b[1..], key);
    }
  }

  /** The solution has the guess's letter at the guess's own index. */
  predicate PositionHit(solution: string, guess: string, i: nat)
    requires i < |guess|
  {
    i < |solution| && solution[i] == guess[i]
  }

  /** The row part of the first half of a step: cell `i` gains
      `containMatch` (and `positionMatch` on a hit) and loses `noMatch` when
      its letter is in the solution, and gains `noMatch` otherwise. */
  function MarkCell(solution: string, guess: string, row: seq<LetterState>, i: nat): (r: seq<LetterState>)
    requires i < |guess| <= |row|
    ensures |r| == |row|
    ensures forall k :: 0 <= k < |row| && k != i ==> r[k] == row[k]
    ensures r[i].letter == row[i].letter && r[i].disabled == row[i].disabled
    ensures guess[i] in solution ==>
              r[i].containMatch && !r[i].noMatch &&
              r[i].positionMatch == (row[i].positionMatch || PositionHit(solution, guess, i))
    ensures guess[i] !in solution ==>
              r[i].noMatch &&
              r[i].containMatch == row[i].containMatch &&
              r[i].positionMatch == row[i].positionMatch
  {
    var cell := row[i];
    if guess[i] in solution then
      row[i := cell.(noMatch := false, containMatch := true,
                     positionMatch := cell.positionMatch || PositionHit(solution, guess, i))]
    else
      row[i := cell.(noMatch := true)]
  }

  /** The keyboard part of the first half of a step: the first key for the
      guess letter gains `containMatch` (and `positionMatch` on a hit) when
      the letter is in the solution, and `noMatch` (and, under the harder
      difficulty, `disabled`) otherwise. A letter with no key changes
      nothing. */
  function MarkKey(solution: string, guess: string, difficulty: Difficulty,
                   keyboard: seq<LetterState>, i: nat): (r: seq<LetterState>)
    requires i < |guess|
    ensures |r| == |keyboard|
    ensures forall j :: 0 <= j < |keyboard| ==> r[j].letter == keyboard[j].letter
    ensures forall j :: 0 <= j < |keyboard| && j != KeyIndex(keyboard, [guess[i]]) ==> r[j] == keyboard[j]
    ensures KeyIndex(keyboard, [guess[i]]) >= 0 ==>
              var k := KeyIndex(keyboard, [guess[i]]);
              if guess[i] in solution then
                r[k] == keyboard[k].(containMatch := true,
                                     positionMatch := keyboard[k].positionMatch || PositionHit(solution, guess, i))
              else
                r[k] == keyboard[k].(noMatch := true,
                                     disabled := keyboard[k].disabled || difficulty == Harder)
  {
    var k := KeyIndex(keyboard, [guess[i]]);
    if k < 0 then keyboard
    else if guess[i] in solution then
      keyboard[k := keyboard[k].(containMatch := true,
                                 positionMatch := keyboard[k].positionMatch || PositionHit(solution, guess, i))]
    else
      keyboard[k := keyboard[k].(noMatch := true,
                                 disabled := keyboard[k].disabled || difficulty == Harder)]
  }

  /** The guess holds more copies of `c` than the solution does. */
  predicate Excess(solution: string, guess: string, c: char) {
    Occurrences(guess, c) > Occurrences(solution, c)
  }

  /** Index `i` holds an excess copy of its letter that is not the first
      copy in the guess: the condition of the duplicate correction. */
  predicate ExcessRepeat(solution: string, guess: string, i: nat)
    requires i < |guess|
  {
    Excess(solution, guess, guess[i]) && IndexOf(guess, guess[i]) < i
  }

  /** Some cell of the row carries `key` and a position match. */
  predicate RowHasPositionMatch(row: seq<LetterState>, key: string) {
    exists k :: 0 <= k < |row| && row[k].letter == key && row[k].positionMatch
  }

  /** The second half of a step. On an excess repeat at index `i`, every
      earlier cell with the same letter loses `containMatch`; then, if any
      cell of the row with that letter holds a position match, cell `i`
      loses `containMatch` too. Nothing else changes. */
  function CorrectDuplicates(solution: string, guess: string, row: seq<LetterState>, i: nat): (r: seq<LetterState>)
    requires i < |guess| <= |row|
    ensures |r| == |row|
    ensures forall k :: 0 <= k < |row| ==>
              r[k] == row[k].(containMatch := r[k].containMatch) &&
              (r[k].containMatch ==> row[k].containMatch)
    ensures !ExcessRepeat(solution, guess, i) ==> r == row
    ensures forall k :: i < k < |row| ==> r[k] == row[k]
    ensures forall k :: 0 <= k < i && row[k].letter != [guess[i]] ==> r[k] == row[k]
    ensures ExcessRepeat(solution, guess, i) ==>
              forall k :: 0 <= k < i && row[k].letter == [guess[i]] ==> !r[k].containMatch
    ensures r[i].containMatch ==
              (row[i].containMatch &&
               !(ExcessRepeat(solution, guess, i) && RowHasPositionMatch(row, [guess[i]])))
  {
    var key := [guess[i]];
    if !ExcessRepeat(solution, guess, i) then row
    else
      var cleared := ClearBefore(row, key, i);
      assert RowHasPositionMatch(cleared, key) <==> RowHasPositionMatch(row, key) by {
        if RowHasPositionMatch(row, key) {
          var k :| 0 <= k < |row| && row[k].letter == key && row[k].positionMatch;
          assert cleared[k].letter == key && cleared[k].positionMatch;
        }
      }
      if RowHasPositionMatch(cleared, key) then cleared[i := cleared[i].(containMatch := false)]
      else cleared
  }

  /** Every cell before index `n` that carries `key` loses `containMatch`;
      the rest of the row is unchanged. */
  function ClearBefore(row: seq<LetterState>, key: string, n: nat): (r: seq<LetterState>)
    requires n <= |row|
    ensures |r| == |row|
    ensures forall k :: 0 <= k < |row| ==>
              r[k] == if k < n && row[k].letter == key then row[k].(containMatch := false) else row[k]
  {
    if n == 0 then row
    else
      var r := ClearBefore(row, key, n - 1);
      if row[n - 1].letter == key then r[n - 1 := row[n - 1].(containMatch := false)] else r
  }

  /** The row part of iteration `i`: mark cell `i`, then correct
      duplicates. Only cell `i` and earlier cells with its letter change,
      and letters and `disabled` flags stay. */
  function ScoreStep(solution: string, guess: string, row: seq<LetterState>, i: nat): (r: seq<LetterState>)
    requires i < |guess| <= |row|
    ensures |r| == |row|
    ensures forall k :: 0 <= k < |row| ==> r[k].letter == row[k].letter && r[k].disabled == row[k].disabled
    ensures forall k :: i < k < |row| ==> r[k] == row[k]
  {
    CorrectDuplicates(solution, guess, MarkCell(solution, guess, row, i), i)
  }

  /** One iteration of the letter loop at index `i`: mark the cell and the
      key, then correct duplicates in the row. */
  function Step(solution: string, guess: string, difficulty: Difficulty, b: Board, i: nat): (r: Board)
    requires i < |guess| <= |b.row|
    ensures |r.row| == |b.row| && |r.keyboard| == |b.keyboard|
    ensures forall k :: 0 <= k < |b.row| ==> r.row[k].letter == b.row[k].letter
    ensures forall k :: i < k < |b.row| ==> r.row[k] == b.row[k]
    ensures KeyboardGrows(b.keyboard, r.keyboard)
    ensures forall j :: 0 <= j < |b.keyboard| && j != KeyIndex(b.keyboard, [guess[i]]) ==>
              r.keyboard[j] == b.keyboard[j]
  {
    Board(ScoreStep(solution, guess, b.row, i), MarkKey(solution, guess, difficulty, b.keyboard, i))
  }

  /** Every flag of `before` is still set in `after`; letters and length
      are unchanged. */
  predicate KeyboardGrows(before: seq<LetterState>, after: seq<LetterState>) {
    |before| == |after| &&
    forall j :: 0 <= j < |before| ==>
      after[j].letter == before[j].letter &&
      (before[j].containMatch ==> after[j].containMatch) &&
      (before[j].positionMatch ==> after[j].positionMatch) &&
      (before[j].noMatch ==> after[j].noMatch) &&
      (before[j].disabled ==> after[j].disabled)
  }

  /** The row after the first `n` iterations. The row part of an
      iteration never reads the keyboard, so the row is a fold of its own. */
  function ScoreRow(solution: string, guess: string, row: seq<LetterState>, n: nat): (r: seq<LetterState>)
    requires n <= |guess| <= |row|
    ensures |r| == |row|
    ensures forall k :: 0 <= k < |row| ==> r[k].letter == row[k].letter && r[k].disabled == row[k].disabled
    ensures forall k :: n <= k < |row| ==> r[k] == row[k]
  {
    if n == 0 then row
    else ScoreStep(solution, guess, ScoreRow(solution, guess, row, n - 1), n - 1)
  }

  /** The keyboard after the first `n` iterations. The keyboard part of an
      iteration never reads the row, so the keyboard is a fold of its own. */
  function MarkKeys(solution: string, guess: string, difficulty: Difficulty,
                    keyboard: seq<LetterState>, n: nat): (r: seq<LetterState>)
    requires n <= |guess|
    ensures KeyboardGrows(keyboard, r)
  {
    if n == 0 then keyboard
    else MarkKey(solution, guess, difficulty, MarkKeys(solution, guess, difficulty, keyboard, n - 1), n - 1)
  }

  /** The two folds taken together advance exactly as the single loop does:
      the boards after `n` iterations are `Step` applied to the boards
      after `n - 1`. */
  lemma {:induction false} FoldsAreTheLoop(solution: string, guess: string, difficulty: Difficulty, b: Board, n: nat)
    requires 0 < n <= |guess| <= |b.row|
    ensures Board(ScoreRow(solution, guess, b.row, n), MarkKeys(solution, guess, difficulty, b.keyboard, n))
            == Step(solution, guess, difficulty,
                    Board(ScoreRow(solution, guess, b.row, n - 1), MarkKeys(solution, guess, difficulty, b.keyboard, n - 1)),
                    n - 1)
  {
  }

  /** The whole letter loop of `validateWord` over the guess. The keyboard
      only ever gains flags, and the row keeps its letters. */
  function Evaluate(solution: string, guess: string, difficulty: Difficulty, b: Board): (r: Board)
    requires |guess| <= |b.row|
    ensures |r.row| == |b.row|
    ensures forall k :: 0 <= k < |b.row| ==> r.row[k].letter == b.row[k].letter
    ensures forall k :: |guess| <= k < |b.row| ==> r.row[k] == b.row[k]
    ensures KeyboardGrows(b.keyboard, r.keyboard)
  {
    Board(ScoreRow(solution, guess, b.row, |guess|), MarkKeys(solution, guess, difficulty, b.keyboard, |guess|))
  }
}

=== FILE: evaluator_spec.dfy ===
/**
 Reference definitions of what the letter loop of `validateWord` computes,
 stated without the loop, and the proofs that the fold agrees with them.

 - For a freshly typed row, each cell's final flags follow from counting:
   `positionMatch` is a hit at that index, `noMatch` is absence from the
   solution, and `containMatch` holds for a solution letter unless the
   guess has more copies of it than the solution and either a later copy
   follows or some copy is a position hit.
 - For any keyboard, each key ends with the OR of its old flags and the
   flags contributed by the guess letters that look it up.
 */
module EvaluatorSpec {
  import opened Letters
  import opened Text
  import opened Evaluator

  /** The row exactly as the keyboard handler leaves it once `guess` is typed. */
  function FreshRow(guess: string): (row: seq<LetterState>)
    ensures |row| == |guess|
    ensures forall k :: 0 <= k < |guess| ==> row[k] == Typed(guess[k])
    ensures Spelled(row) == guess
  {
    seq(|guess|, k requires 0 <= k < |guess| => Typed(guess[k]))
  }

  /** Another copy of the letter at `k` sits strictly between `k` and `hi`. */
  predicate CopyBetween(guess: string, k: nat, hi: int)
    requires k < |guess|
  {
    exists j :: k < j < hi && j < |guess| && guess[j] == guess[k]
  }

  /** Some copy of `c` at an index below `hi` is a position hit. */
  predicate HitBelow(solution: string, guess: string, c: char, hi: int) {
    exists m :: 0 <= m < hi && m < |guess| && guess[m] == c && PositionHit(solution, guess, m)
  }

  /** Final state of cell `i` of a freshly typed row. */
  function ExpectedCell(solution: string, guess: string, i: nat): LetterState
    requires i < |guess|
  {
    var c := guess[i];
    LetterState(
      [c],
      c in solution &&
        !(Excess(solution, guess, c) &&
          (CopyBetween(guess, i, |guess|) || HitBelow(solution, guess, c, |guess|))),
      PositionHit(solution, guess, i),
      c !in solution,
      false)
  }

  function ExpectedRow(solution: string, guess: string): (row: seq<LetterState>)
    ensures |row| == |guess|
    ensures forall i :: 0 <= i < |guess| ==> row[i] == ExpectedCell(solution, guess, i)
  {
    seq(|guess|, i requires 0 <= i < |guess| => ExpectedCell(solution, guess, i))
  }

  /** State of cell `k` once the first `n` iterations have run (`k < n`). */
  function PrefixCell(solution: string, guess: string, n: nat, k: nat): LetterState
    requires k < n <= |guess|
  {
    var c := guess[k];
    LetterState(
      [c],
      c in solution &&
        !(Excess(solution, guess, c) &&
          (CopyBetween(guess, k, n) ||
           (IndexOf(guess, c) < k && HitBelow(solution, guess, c, k + 1)))),
      PositionHit(solution, guess, k),
      c !in solution,
      false)
  }

  /** Cell `k` after `n` iterations: as `PrefixCell` says once processed,
      still freshly typed otherwise. */
  function AfterCell(solution: string, guess: string, n: nat, k: nat): LetterState
    requires k < |guess| && n <= |guess|
  {
    if k < n then PrefixCell(solution, guess, n, k) else Typed(guess[k])
  }

  /** The whole row after `n` iterations: the freshly typed row before the
      first, and the reference row after the last. */
  function PrefixRowAt(solution: string, guess: string, n: nat): (row: seq<LetterState>)
    requires n <= |guess|
    ensures |row| == |guess|
    ensures forall k :: 0 <= k < |guess| ==> row[k] == AfterCell(solution, guess, n, k)
    ensures n == 0 ==> row == FreshRow(guess)
    ensures n == |guess| ==> row == ExpectedRow(solution, guess)
  {
    var row := seq(|guess|, k requires 0 <= k < |guess| => AfterCell(solution, guess, n, k));
    assert n == |guess| ==> row == ExpectedRow(solution, guess) by {
      if n == |guess| {
        forall k | 0 <= k < |guess|
          ensures row[k] == ExpectedRow(solution, guess)[k]
        {
          CompletePrefixCell(solution, guess, k);
        }
      }
    }
    row
  }

  /** The first copy of a letter is at or before any copy of it. */
  lemma IndexOfAtMost(guess: string, k: nat)
    requires k < |guess|
    ensures 0 <= IndexOf(guess, guess[k]) <= k
  {
  }

  /** The position-match scan of the duplicate correction at index `n`
      sees exactly the hits of that letter up to `n`. */
  lemma RowScanIsHitBelow(solution: string, guess: string, row: seq<LetterState>, n: nat)
    requires n < |guess|
    requires |row| == |guess|
    requires forall k :: n < k < |guess| ==> row[k] == Typed(guess[k])
    requires forall k :: 0 <= k <= n ==>
               row[k].letter == [guess[k]] && row[k].positionMatch == PositionHit(solution, guess, k)
    ensures RowHasPositionMatch(row, [guess[n]]) <==> HitBelow(solution, guess, guess[n], n + 1)
  {
    var c := guess[n];
    if RowHasPositionMatch(row, [c]) {
      var k :| 0 <= k < |row| && row[k].letter == [c] && row[k].positionMatch;
      assert k <= n;
      assert [guess[k]] == [c];
      assert guess[k] == [guess[k]][0];
    }
    if HitBelow(solution, guess, c, n + 1) {
      var m :| 0 <= m < n + 1 && m < |guess| && guess[m] == c && PositionHit(solution, guess, m);
      assert row[m].letter == [c] && row[m].positionMatch;
    }
  }

  /** One iteration moves the prefix description from `n` to `n + 1`. */
  lemma StepKeepsPrefix(solution: string, guess: string, n: nat)
    requires n < |guess|
    ensures ScoreStep(solution, guess, PrefixRowAt(solution, guess, n), n) == PrefixRowAt(solution, guess, n + 1)
  {
    StepKeepsPrefixCells(solution, guess, PrefixRowAt(solution, guess, n), n);
  }

  /** Cells before `n` after iteration `n`: an excess copy of the letter at
      `n` clears the contain match of every earlier copy. */
  lemma StepEarlierCells(solution: string, guess: string, row: seq<LetterState>, n: nat)
    requires n < |guess| == |row|
    requires forall k :: 0 <= k < |guess| ==> row[k] == AfterCell(solution, guess, n, k)
    ensures forall k :: 0 <= k < n ==>
              ScoreStep(solution, guess, row, n)[k] == PrefixCell(solution, guess, n + 1, k)
  {
    var r := ScoreStep(solution, guess, row, n);
    var c := guess[n];
    var marked := MarkCell(solution, guess, row, n);
    forall k | 0 <= k < n
      ensures r[k] == PrefixCell(solution, guess, n + 1, k)
    {
      assert marked[k] == row[k];
      if guess[k] == c {
        IndexOfAtMost(guess, k);
        assert CopyBetween(guess, k, n + 1);
      } else {
        assert [guess[k]] != [c];
        assert CopyBetween(guess, k, n + 1) <==> CopyBetween(guess, k, n);
      }
    }
  }

  /** Cell `n` after iteration `n`: marked, then cleared when it is an
      excess repeat and some copy up to `n` is a position hit. */
  lemma StepCurrentCell(solution: string, guess: string, row: seq<LetterState>, n: nat)
    requires n < |guess| == |row|
    requires forall k :: 0 <= k < |guess| ==> row[k] == AfterCell(solution, guess, n, k)
    ensures ScoreStep(solution, guess, row, n)[n] == PrefixCell(solution, guess, n + 1, n)
  {
    var c := guess[n];
    var marked := MarkCell(solution, guess, row, n);
    assert marked[n].letter == [c];
    assert marked[n].positionMatch == PositionHit(solution, guess, n);
    assert marked[n].containMatch == (c in solution);
    RowScanIsHitBelow(solution, guess, marked, n);
    assert !CopyBetween(guess, n, n + 1);
  }

  lemma StepKeepsPrefixCells(solution: string, guess: string, row: seq<LetterState>, n: nat)
    requires n < |guess| == |row|
    requires forall k :: 0 <= k < |guess| ==> row[k] == AfterCell(solution, guess, n, k)
    ensures forall k :: 0 <= k < |guess| ==>
              ScoreStep(solution, guess, row, n)[k] == AfterCell(solution, guess, n + 1, k)
  {
    StepEarlierCells(solution, guess, row, n);
    StepCurrentCell(solution, guess, row, n);
  }

  /** Before any iteration the prefix description is the freshly typed row. */
  lemma FreshRowIsPrefix(solution: string, guess: string)
    ensures FreshRow(guess) == PrefixRowAt(solution, guess, 0)
  {
  }

  /** The row fold follows any sequence of rows that each iteration
      carries to the next. */
  lemma {:induction false} ScoreRowFollows(solution: string, guess: string, rows: seq<seq<LetterState>>, n: nat)
    requires n <= |guess| < |rows|
    requires forall m :: 0 <= m < |guess| ==>
               |rows[m]| == |guess| && ScoreStep(solution, guess, rows[m], m) == rows[m + 1]
    ensures ScoreRow(solution, guess, rows[0], n) == rows[n]
  {
    if n > 0 {
      ScoreRowFollows(solution, guess, rows, n - 1);
    }
  }

  /** The row fold over a fresh row follows the prefix description. */
  lemma ScoreRowPrefix(solution: string, guess: string)
    ensures ScoreRow(solution, guess, FreshRow(guess), |guess|) == PrefixRowAt(solution, guess, |guess|)
  {
    var rows := seq(|guess| + 1, m requires 0 <= m <= |guess| => PrefixRowAt(solution, guess, m));
    forall m | 0 <= m < |guess|
      ensures |rows[m]| == |guess| && ScoreStep(solution, guess, rows[m], m) == rows[m + 1]
    {
      StepKeepsPrefix(solution, guess, m);
    }
    FreshRowIsPrefix(solution, guess);
    ScoreRowFollows(solution, guess, rows, |guess|);
  }

  /** After the last iteration the prefix description is the reference cell. */
  lemma CompletePrefixCell(solution: string, guess: string, k: nat)
    requires k < |guess|
    ensures PrefixCell(solution, guess, |guess|, k) == ExpectedCell(solution, guess, k)
  {
    var c := guess[k];
    if c in solution && Excess(solution, guess, c) && !CopyBetween(guess, k, |guess|) {
      assert Occurrences(solution, c) >= 1;
      AnotherOccurrence(guess, c, k);
      var j :| 0 <= j < |guess| && j != k && guess[j] == c;
      assert j < k;
      IndexOfAtMost(guess, j);
      assert HitBelow(solution, guess, c, k + 1) <==> HitBelow(solution, guess, c, |guess|) by {
        if HitBelow(solution, guess, c, |guess|) {
          var m :| 0 <= m < |guess| && guess[m] == c && PositionHit(solution, guess, m);
          assert m <= k;
        }
      }
    }
  }

  /** The letter loop over a freshly typed row produces the reference row. */
  lemma EvaluateFreshRow(solution: string, guess: string, difficulty: Difficulty, keyboard: seq<LetterState>)
    ensures Evaluate(solution, guess, difficulty, Board(FreshRow(guess), keyboard)).row
            == ExpectedRow(solution, guess)
  {
    ScoreRowPrefix(solution, guess);
    forall k | 0 <= k < |guess| {
      CompletePrefixCell(solution, guess, k);
    }
  }

  // ---------------------------------------------------------------------
  // Keyboard

  /** Guess letter `i` looks up key `j`. */
  predicate Feeds(keyboard: seq<LetterState>, guess: string, i: nat, j: int)
    requires i < |guess|
  {
    KeyIndex(keyboard, [guess[i]]) == j
  }

  /** Some of the first `n` guess letters looks up key `j` and is in the solution. */
  predicate FoundIn(solution: string, guess: string, keyboard: seq<LetterState>, n: nat, j: int) {
    exists i :: 0 <= i < n && i < |guess| && Feeds(keyboard, guess, i, j) && guess[i] in solution
  }

  /** Some of the first `n` guess letters looks up key `j` and is a position hit. */
  predicate HitIn(solution: string, guess: string, keyboard: seq<LetterState>, n: nat, j: int) {
    exists i :: 0 <= i < n && i < |guess| && Feeds(keyboard, guess, i, j) && PositionHit(solution, guess, i)
  }

  /** Some of the first `n` guess letters looks up key `j` and is absent from the solution. */
  predicate MissedIn(solution: string, guess: string, keyboard: seq<LetterState>, n: nat, j: int) {
    exists i :: 0 <= i < n && i < |guess| && Feeds(keyboard, guess, i, j) && guess[i] !in solution
  }

  /** Key `j` after the first `n` iterations: its old flags, OR the flags
      its guess letters contribute. */
  function ExpectedKey(solution: string, guess: string, difficulty: Difficulty,
                       keyboard: seq<LetterState>, n: nat, j: nat): LetterState
    requires j < |keyboard|
  {
    var e := keyboard[j];
    var missed := MissedIn(solution, guess, keyboard, n, j);
    e.(containMatch := e.containMatch || FoundIn(solution, guess, keyboard, n, j),
       positionMatch := e.positionMatch || HitIn(solution, guess, keyboard, n, j),
       noMatch := e.noMatch || missed,
       disabled := e.disabled || (difficulty == Harder && missed))
  }

  function ExpectedKeyboard(solution: string, guess: string, difficulty: Difficulty,
                            keyboard: seq<LetterState>, n: nat): (r: seq<LetterState>)
    ensures |r| == |keyboard|
    ensures forall j :: 0 <= j < |keyboard| ==> r[j] == ExpectedKey(solution, guess, difficulty, keyboard, n, j)
  {
    seq(|keyboard|, j requires 0 <= j < |keyboard| => ExpectedKey(solution, guess, difficulty, keyboard, n, j))
  }

  /** Extending the prefix by index `n` adds exactly that index's contribution. */
  lemma ExtendContributions(solution: string, guess: string, keyboard: seq<LetterState>, n: nat, j: int)
    requires n < |guess|
    ensures FoundIn(solution, guess, keyboard, n + 1, j) ==
            (FoundIn(solution, guess, keyboard, n, j) || (Feeds(keyboard, guess, n, j) && guess[n] in solution))
    ensures HitIn(solution, guess, keyboard, n + 1, j) ==
            (HitIn(solution, guess, keyboard, n, j) || (Feeds(keyboard, guess, n, j) && PositionHit(solution, guess, n)))
    ensures MissedIn(solution, guess, keyboard, n + 1, j) ==
            (MissedIn(solution, guess, keyboard, n, j) || (Feeds(keyboard, guess, n, j) && guess[n] !in solution))
  {
    ExtendFound(solution, guess, keyboard, n, j);
    ExtendHit(solution, guess, keyboard, n, j);
    ExtendMissed(solution, guess, keyboard, n, j);
  }

  lemma ExtendFound(solution: string, guess: string, keyboard: seq<LetterState>, n: nat, j: int)
    requires n < |guess|
    ensures FoundIn(solution, guess, keyboard, n + 1, j) ==
            (FoundIn(solution, guess, keyboard, n, j) || (Feeds(keyboard, guess, n, j) && guess[n] in solution))
  {
    if FoundIn(solution, guess, keyboard, n + 1, j) {
      var i :| 0 <= i < n + 1 && i < |guess| && Feeds(keyboard, guess, i, j) && guess[i] in solution;
      if i < n {
        assert FoundIn(solution, guess, keyboard, n, j);
      }
    }
  }

  lemma ExtendHit(solution: string, guess: string, keyboard: seq<LetterState>, n: nat, j: int)
    requires n < |guess|
    ensures HitIn(solution, guess, keyboard, n + 1, j) ==
            (HitIn(solution, guess, keyboard, n, j) || (Feeds(keyboard, guess, n, j) && PositionHit(solution, guess, n)))
  {
    if HitIn(solution, guess, keyboard, n + 1, j) {
      var i :| 0 <= i < n + 1 && i < |guess| && Feeds(keyboard, guess, i, j) && PositionHit(solution, guess, i);
      if i < n {
        assert HitIn(solution, guess, keyboard, n, j);
      }
    }
  }

  lemma ExtendMissed(solution: string, guess: string, keyboard: seq<LetterState>, n: nat, j: int)
    requires n < |guess|
    ensures MissedIn(solution, guess, keyboard, n + 1, j) ==
            (MissedIn(solution, guess, keyboard, n, j) || (Feeds(keyboard, guess, n, j) && guess[n] !in solution))
  {
    if MissedIn(solution, guess, keyboard, n + 1, j) {
      var i :| 0 <= i < n + 1 && i < |guess| && Feeds(keyboard, guess, i, j) && guess[i] !in solution;
      if i < n {
        assert MissedIn(solution, guess, keyboard, n, j);
      }
    }
  }

  /** One keyboard update moves key `j` from its description at `n` to
      its description at `n + 1`. */
  lemma MarkKeyStepAt(solution: string, guess: string, difficulty: Difficulty,
                      keyboard: seq<LetterState>, n: nat, j: nat)
    requires n < |guess| && j < |keyboard|
    ensures MarkKey(solution, guess, difficulty, ExpectedKeyboard(solution, guess, difficulty, keyboard, n), n)[j]
            == ExpectedKey(solution, guess, difficulty, keyboard, n + 1, j)
  {
    var cur := ExpectedKeyboard(solution, guess, difficulty, keyboard, n);
    KeyIndexLetters(cur, keyboard, [guess[n]]);
    if Feeds(keyboard, guess, n, j) {
      MarkKeyFedKey(solution, guess, difficulty, keyboard, n, j);
    } else {
      MarkKeyOtherKey(solution, guess, difficulty, keyboard, n, j);
    }
  }

  /** The key the letter at `n` looks up gains that letter's flags. */
  lemma MarkKeyFedKey(solution: string, guess: string, difficulty: Difficulty,
                      keyboard: seq<LetterState>, n: nat, j: nat)
    requires n < |guess| && j < |keyboard|
    requires Feeds(keyboard, guess, n, j)
    requires KeyIndex(ExpectedKeyboard(solution, guess, difficulty, keyboard, n), [guess[n]]) == j
    ensures MarkKey(solution, guess, difficulty, ExpectedKeyboard(solution, guess, difficulty, keyboard, n), n)[j]
            == ExpectedKey(solution, guess, difficulty, keyboard, n + 1, j)
  {
    ExtendContributions(solution, guess, keyboard, n, j);
  }

  /** Every other key is left as it was, and gains nothing from `n`. */
  lemma MarkKeyOtherKey(solution: string, guess: string, difficulty: Difficulty,
                        keyboard: seq<LetterState>, n: nat, j: nat)
    requires n < |guess| && j < |keyboard|
    requires !Feeds(keyboard, guess, n, j)
    requires KeyIndex(ExpectedKeyboard(solution, guess, difficulty, keyboard, n), [guess[n]])
             == KeyIndex(keyboard, [guess[n]])
    ensures MarkKey(solution, guess, difficulty, ExpectedKeyboard(solution, guess, difficulty, keyboard, n), n)[j]
            == ExpectedKey(solution, guess, difficulty, keyboard, n + 1, j)
  {
    ExtendContributions(solution, guess, keyboard, n, j);
  }

  /** One keyboard update moves the keyboard description from `n` to `n + 1`. */
  lemma MarkKeyStep(solution: string, guess: string, difficulty: Difficulty,
                    keyboard: seq<LetterState>, n: nat)
    requires n < |guess|
    ensures MarkKey(solution, guess, difficulty, ExpectedKeyboard(solution, guess, difficulty, keyboard, n), n)
            == ExpectedKeyboard(solution, guess, difficulty, keyboard, n + 1)
  {
    var r := MarkKey(solution, guess, difficulty, ExpectedKeyboard(solution, guess, difficulty, keyboard, n), n);
    var next := ExpectedKeyboard(solution, guess, difficulty, keyboard, n + 1);
    forall j | 0 <= j < |keyboard|
      ensures r[j] == next[j]
    {
      MarkKeyStepAt(solution, guess, difficulty, keyboard, n, j);
    }
  }

  /** Before any iteration the description is the keyboard itself. */
  lemma NothingContributed(solution: string, guess: string, difficulty: Difficulty, keyboard: seq<LetterState>)
    ensures ExpectedKeyboard(solution, guess, difficulty, keyboard, 0) == keyboard
  {
    var e := ExpectedKeyboard(solution, guess, difficulty, keyboard, 0);
    forall j | 0 <= j < |keyboard|
      ensures e[j] == keyboard[j]
    {
      assert !FoundIn(solution, guess, keyboard, 0, j);
      assert !HitIn(solution, guess, keyboard, 0, j);
      assert !MissedIn(solution, guess, keyboard, 0, j);
    }
  }

  /** The keyboard fold follows any sequence of keyboards that each
      iteration carries to the next. */
  lemma {:induction false} MarkKeysFollow(solution: string, guess: string, difficulty: Difficulty,
                                          keyboards: seq<seq<LetterState>>, n: nat)
    requires n <= |guess| < |keyboards|
    requires forall m :: 0 <= m < |guess| ==>
               MarkKey(solution, guess, difficulty, keyboards[m], m) == keyboards[m + 1]
    ensures MarkKeys(solution, guess, difficulty, keyboards[0], n) == keyboards[n]
  {
    if n > 0 {
      MarkKeysFollow(solution, guess, difficulty, keyboards, n - 1);
    }
  }

  /** The keyboard fold follows the keyboard description. */
  lemma MarkKeysExpected(solution: string, guess: string, difficulty: Difficulty, keyboard: seq<LetterState>)
    ensures MarkKeys(solution, guess, difficulty, keyboard, |guess|)
            == ExpectedKeyboard(solution, guess, difficulty, keyboard, |guess|)
  {
    var keyboards := seq(|guess| + 1, m requires 0 <= m <= |guess| =>
                           ExpectedKeyboard(solution, guess, difficulty, keyboard, m));
    forall m | 0 <= m < |guess|
      ensures MarkKey(solution, guess, difficulty, keyboards[m], m) == keyboards[m + 1]
    {
      MarkKeyStep(solution, guess, difficulty, keyboard, m);
    }
    NothingContributed(solution, guess, difficulty, keyboard);
    MarkKeysFollow(solution, guess, difficulty, keyboards, |guess|);
  }

  /** The letter loop leaves every key with the OR of its old flags and
      those its guess letters contribute, whatever the row held. */
  lemma EvaluateKeyboard(solution: string, guess: string, difficulty: Difficulty, b: Board)
    requires |guess| <= |b.row|
    ensures Evaluate(solution, guess, difficulty, b).keyboard
            == ExpectedKeyboard(solution, guess, difficulty, b.keyboard, |guess|)
  {
    MarkKeysExpected(solution, guess, difficulty, b.keyboard);
  }

  /** Key `j` contributed by guess letter `i` carries that letter. */
  lemma FeedsLetter(keyboard: seq<LetterState>, guess: string, i: nat, j: int)
    requires i < |guess| && Feeds(keyboard, guess, i, j) && 0 <= j
    ensures j < |keyboard| && keyboard[j].letter == [guess[i]]
  {
  }

  /** What a key's flags say about the solution: a contain or position
      match names a solution letter, a no-match names a letter absent from
      it, a position match implies a contain match, and only a no-match key
      is disabled. */
  predicate KeySound(solution: string, e: LetterState) {
    (e.containMatch ==> |e.letter| == 1 && e.letter[0] in solution) &&
    (e.positionMatch ==> e.containMatch) &&
    (e.noMatch ==> |e.letter| == 1 && e.letter[0] !in solution) &&
    (e.disabled ==> e.noMatch)
  }

  predicate KeyboardSound(solution: string, keyboard: seq<LetterState>) {
    forall j :: 0 <= j < |keyboard| ==> KeySound(solution, keyboard[j])
  }

  /** For a fixed solution the letter loop keeps the keyboard sound; so no
      key ever shows both a no-match and a contain match, and a position
      match always comes with a contain match. */
  lemma EvaluateKeepsKeyboardSound(solution: string, guess: string, difficulty: Difficulty, b: Board)
    requires |guess| <= |b.row|
    requires KeyboardSound(solution, b.keyboard)
    ensures KeyboardSound(solution, Evaluate(solution, guess, difficulty, b).keyboard)
    ensures forall j :: 0 <= j < |b.keyboard| ==>
              var e := Evaluate(solution, guess, difficulty, b).keyboard[j];
              !(e.noMatch && e.containMatch) && (e.positionMatch ==> e.containMatch)
  {
    EvaluateKeyboard(solution, guess, difficulty, b);
    var kb := b.keyboard;
    var n := |guess|;
    forall j | 0 <= j < |kb|
      ensures KeySound(solution, ExpectedKey(solution, guess, difficulty, kb, n, j))
    {
      if FoundIn(solution, guess, kb, n, j) {
        var i :| 0 <= i < n && i < |guess| && Feeds(kb, guess, i, j) && guess[i] in solution;
        FeedsLetter(kb, guess, i, j);
      }
      if HitIn(solution, guess, kb, n, j) {
        var i :| 0 <= i < n && i < |guess| && Feeds(kb, guess, i, j) && PositionHit(solution, guess, i);
        assert FoundIn(solution, guess, kb, n, j);
      }
      if MissedIn(solution, guess, kb, n, j) {
        var i :| 0 <= i < n && i < |guess| && Feeds(kb, guess, i, j) && guess[i] !in solution;
        FeedsLetter(kb, guess, i, j);
      }
    }
  }

  /** After the letter loop, the key of each guess letter shows what that
      letter revealed. */
  lemma GuessLetterKey(solution: string, guess: string, difficulty: Difficulty, b: Board, i: nat)
    requires |guess| <= |b.row| && i < |guess|
    requires KeyIndex(b.keyboard, [guess[i]]) >= 0
    ensures var e := Evaluate(solution, guess, difficulty, b).keyboard[KeyIndex(b.keyboard, [guess[i]])];
            (guess[i] in solution ==> e.containMatch) &&
            (PositionHit(solution, guess, i) ==> e.positionMatch) &&
            (guess[i] !in solution ==> e.noMatch && (difficulty == Harder ==> e.disabled))
  {
    EvaluateKeyboard(solution, guess, difficulty, b);
    var j := KeyIndex(b.keyboard, [guess[i]]);
    assert Feeds(b.keyboard, guess, i, j);
  }

  /** Guessing the solution itself marks every cell a position match and
      a contain match, and none a no-match. */
  lemma SolutionGuessAllPositionMatch(solution: string, difficulty: Difficulty, keyboard: seq<LetterState>)
    ensures var row := Evaluate(solution, solution, difficulty, Board(FreshRow(solution), keyboard)).row;
            forall i :: 0 <= i < |solution| ==>
              row[i].positionMatch && row[i].containMatch && !row[i].noMatch
  {
    EvaluateFreshRow(solution, solution, difficulty, keyboard);
    forall i | 0 <= i < |solution|
      ensures !Excess(solution, solution, solution[i])
    {
    }
  }

  /** A guess sharing no letter with the solution marks every cell a
      no-match, with no contain or position match. */
  lemma DisjointGuessAllNoMatch(solution: string, guess: string, difficulty: Difficulty, keyboard: seq<LetterState>)
    requires forall i :: 0 <= i < |guess| ==> guess[i] !in solution
    ensures var row := Evaluate(solution, guess, difficulty, Board(FreshRow(guess), keyboard)).row;
            forall i :: 0 <= i < |guess| ==>
              row[i].noMatch && !row[i].containMatch && !row[i].positionMatch
  {
    EvaluateFreshRow(solution, guess, difficulty, keyboard);
  }

  // ---------------------------------------------------------------------
  // Worked examples

  /** The count of `c` in a five-letter word, letter by letter. */
  lemma CountFive(s: string, c: char)
    requires |s| == 5
    ensures Occurrences(s, c) ==
              (if s[0] == c then 1 else 0) + (if s[1] == c then 1 else 0) + (if s[2] == c then 1 else 0) +
              (if s[3] == c then 1 else 0) + (if s[4] == c then 1 else 0)
  {
    assert s[0..] == s;
    OccurrencesFrom(s, 0, c);
    OccurrencesFrom(s, 1, c);
    OccurrencesFrom(s, 2, c);
    OccurrencesFrom(s, 3, c);
    OccurrencesFrom(s, 4, c);
    assert s[5..] == [];
  }

  /** `s` spells the five letters `a b c d e`. */
  predicate Spells(s: string, a: char, b: char, c: char, d: char, e: char) {
    |s| == 5 && s[0] == a && s[1] == b && s[2] == c && s[3] == d && s[4] == e
  }

  /** Solution ALLOW, guess LLAMA: both L are credited (one a position
      match), M is a no-match, and of the two A only the later one keeps its
      contain match, because the correction clears earlier copies. */
  lemma AllowLlama(solution: string, guess: string, difficulty: Difficulty, keyboard: seq<LetterState>)
    requires Spells(solution, 'A', 'L', 'L', 'O', 'W') && Spells(guess, 'L', 'L', 'A', 'M', 'A')
    ensures var row := Evaluate(solution, guess, difficulty, Board(FreshRow(guess), keyboard)).row;
            row[0].containMatch && !row[0].positionMatch && !row[0].noMatch &&
            row[1].containMatch && row[1].positionMatch && !row[1].noMatch &&
            !row[2].containMatch && !row[2].positionMatch && !row[2].noMatch &&
            row[3].noMatch && !row[3].containMatch &&
            row[4].containMatch && !row[4].positionMatch
  {
    EvaluateFreshRow(solution, guess, difficulty, keyboard);
    CountFive(guess, 'L');
    CountFive(solution, 'L');
    CountFive(guess, 'A');
    CountFive(solution, 'A');
    CountFive(solution, 'M');
    assert CopyBetween(guess, 2, 5) by {
      assert guess[4] == 'A';
    }
    assert !HitBelow(solution, guess, 'A', 5);
  }

  /** Solution BRAKE, guess BOBBY: the first B is a position hit, and the
      two excess copies after it end with no flag at all, neither a contain
      match nor a no-match; the first B also loses its contain match. */
  lemma BrakeBobby(solution: string, guess: string, difficulty: Difficulty, keyboard: seq<LetterState>)
    requires Spells(solution, 'B', 'R', 'A', 'K', 'E') && Spells(guess, 'B', 'O', 'B', 'B', 'Y')
    ensures var row := Evaluate(solution, guess, difficulty, Board(FreshRow(guess), keyboard)).row;
            row[0].positionMatch && !row[0].containMatch &&
            row[1].noMatch &&
            !row[2].containMatch && !row[2].positionMatch && !row[2].noMatch &&
            !row[3].containMatch && !row[3].positionMatch && !row[3].noMatch &&
            row[4].noMatch
  {
    EvaluateFreshRow(solution, guess, difficulty, keyboard);
    CountFive(guess, 'B');
    CountFive(solution, 'B');
    CountFive(solution, 'O');
    CountFive(solution, 'Y');
    assert CopyBetween(guess, 0, 5) by {
      assert guess[2] == 'B';
    }
    assert HitBelow(solution, guess, 'B', 5) by {
      assert PositionHit(solution, guess, 0);
    }
  }

  /** Solution ROBOT, guess BOOTH: the guess holds no more copies of any
      letter than the solution, so every solution letter keeps its contain
      match; only the O at index 1 is also a position match, and H is a
      no-match. */
  lemma RobotBooth(solution: string, guess: string, difficulty: Difficulty, keyboard: seq<LetterState>)
    requires Spells(solution, 'R', 'O', 'B', 'O', 'T') && Spells(guess, 'B', 'O', 'O', 'T', 'H')
    ensures var row := Evaluate(solution, guess, difficulty, Board(FreshRow(guess), keyboard)).row;
            row[0].containMatch && !row[0].positionMatch && !row[0].noMatch &&
            row[1].containMatch && row[1].positionMatch && !row[1].noMatch &&
            row[2].containMatch && !row[2].positionMatch && !row[2].noMatch &&
            row[3].containMatch && !row[3].positionMatch && !row[3].noMatch &&
            row[4].noMatch && !row[4].containMatch && !row[4].positionMatch
  {
    EvaluateFreshRow(solution, guess, difficulty, keyboard);
    CountFive(guess, 'B');
    CountFive(solution, 'B');
    CountFive(guess, 'O');
    CountFive(solution, 'O');
    CountFive(guess, 'T');
    CountFive(solution, 'T');
    CountFive(solution, 'H');
  }
}

=== FILE: game_log.dfy ===
/**
 The statistics record kept across games and its updates: a win, a loss,
 a forfeit, one more submitted guess, one more rejected word, and a reset.

 Persistence to browser storage and the clock stamps `lastUpdated` and
 `lastWin` are not part of this model.
 */
module GameLogs {

  datatype GameLog = GameLog(
    gamesPlayed: nat,
    winStreak: nat,
    maxWinStreak: nat,
    invalidWordCount: nat,
    winCount: nat,
    forfeitCount: nat,
    lossCount: nat,
    guessCount: nat,
    /** Wins by number of guesses used, keyed 1 to 6. */
    winGuessCountDistribution: map<nat, nat>,
    /** Fewest guesses a word was ever solved in. */
    solvedWords: map<string, nat>)

  /** Every counter zero, every bucket 1 to 6 present and zero, no solved word. */
  const DefaultGameLog: GameLog :=
    GameLog(0, 0, 0, 0, 0, 0, 0, 0, map[1 := 0, 2 := 0, 3 := 0, 4 := 0, 5 := 0, 6 := 0], map[])

  /** The guess counts a win can take. */
  const Buckets: set<nat> := {1, 2, 3, 4, 5, 6}

  function Max(a: nat, b: nat): nat {
    if a < b then b else a
  }

  /** The solved-word table after solving `word` in `guessCount` guesses:
      the count is stored when the word is absent or stored as 0 (both read
      as false), and otherwise lowered when the new count is smaller. */
  function RecordSolved(solved: map<string, nat>, word: string, guessCount: nat): (r: map<string, nat>)
    ensures r.Keys == solved.Keys + {word}
    ensures forall w :: w in solved && w != word ==> r[w] == solved[w]
    ensures word !in solved || solved[word] == 0 ==> r[word] == guessCount
    ensures word in solved && solved[word] > 0 ==>
              r[word] <= solved[word] && r[word] <= guessCount &&
              (r[word] == solved[word] || r[word] == guessCount)
  {
    if word !in solved || solved[word] == 0 then solved[word := guessCount]
    else if solved[word] > guessCount then solved[word := guessCount]
    else solved
  }

  /** A win in `guessCount` guesses. The bucket for `guessCount` must exist. */
  function UpdateWinCount(log: GameLog, word: string, guessCount: nat): (r: GameLog)
    requires guessCount in log.winGuessCountDistribution
    ensures r.gamesPlayed == log.gamesPlayed + 1
    ensures r.winCount == log.winCount + 1
    ensures r.winStreak == log.winStreak + 1
    ensures r.maxWinStreak == Max(log.maxWinStreak, r.winStreak)
    ensures r.winGuessCountDistribution.Keys == log.winGuessCountDistribution.Keys
    ensures r.winGuessCountDistribution[guessCount] == log.winGuessCountDistribution[guessCount] + 1
    ensures forall g :: g in log.winGuessCountDistribution && g != guessCount ==>
              r.winGuessCountDistribution[g] == log.winGuessCountDistribution[g]
    ensures r.solvedWords == RecordSolved(log.solvedWords, word, guessCount)
    ensures r.lossCount == log.lossCount && r.forfeitCount == log.forfeitCount
    ensures r.guessCount == log.guessCount && r.invalidWordCount == log.invalidWordCount
  {
    var streak := log.winStreak + 1;
    var dist := log.winGuessCountDistribution;
    log.(gamesPlayed := log.gamesPlayed + 1,
         winCount := log.winCount + 1,
         winStreak := streak,
         maxWinStreak := if streak > log.maxWinStreak then streak else log.maxWinStreak,
         winGuessCountDistribution := dist[guessCount := dist[guessCount] + 1],
         solvedWords := RecordSolved(log.solvedWords, word, guessCount))
  }

  /** A loss: the streak ends, the best streak stays. */
  function UpdateLossCount(log: GameLog): (r: GameLog)
    ensures r.gamesPlayed == log.gamesPlayed + 1
    ensures r.lossCount == log.lossCount + 1
    ensures r.winStreak == 0
    ensures r == log.(gamesPlayed := r.gamesPlayed, lossCount := r.lossCount, winStreak := 0)
  {
    log.(gamesPlayed := log.gamesPlayed + 1, winStreak := 0, lossCount := log.lossCount + 1)
  }

  /** A revealed solution: counted as played and forfeited; the streak is untouched. */
  function UpdateForfeitCount(log: GameLog): (r: GameLog)
    ensures r.gamesPlayed == log.gamesPlayed + 1
    ensures r.forfeitCount == log.forfeitCount + 1
    ensures r == log.(gamesPlayed := r.gamesPlayed, forfeitCount := r.forfeitCount)
  {
    log.(gamesPlayed := log.gamesPlayed + 1, forfeitCount := log.forfeitCount + 1)
  }

  /** One more submitted guess; nothing else changes. */
  function UpdateGuessCount(log: GameLog): (r: GameLog)
    ensures r.guessCount == log.guessCount + 1
    ensures r == log.(guessCount := r.guessCount)
  {
    log.(guessCount := log.guessCount + 1)
  }

  /** One more word rejected by the dictionary; nothing else changes. */
  function UpdateInvalidWordCount(log: GameLog): (r: GameLog)
    ensures r.invalidWordCount == log.invalidWordCount + 1
    ensures r == log.(invalidWordCount := r.invalidWordCount)
  {
    log.(invalidWordCount := log.invalidWordCount + 1)
  }

  /** Back to the all-zero record. */
  function ResetGameLog(log: GameLog): (r: GameLog)
    ensures r.gamesPlayed == 0 && r.winCount == 0 && r.lossCount == 0 && r.forfeitCount == 0
    ensures r.winStreak == 0 && r.maxWinStreak == 0 && r.guessCount == 0 && r.invalidWordCount == 0
    ensures r.solvedWords == map[]
    ensures r.winGuessCountDistribution.Keys == Buckets
    ensures forall g :: g in Buckets ==> r.winGuessCountDistribution[g] == 0
  {
    DefaultGameLog
  }

  /** Sum of the six buckets. */
  function DistributionTotal(dist: map<nat, nat>): nat
    requires Buckets <= dist.Keys
  {
    dist[1] + dist[2] + dist[3] + dist[4] + dist[5] + dist[6]
  }

  /** The consistency the updates keep: every game played ended in exactly
      one of win, loss or forfeit; the best streak is at least the current
      one and no more than the wins; the six buckets are present and add up
      to the wins; solved words record between 1 and 6 guesses. */
  predicate LogInvariant(log: GameLog) {
    && log.gamesPlayed == log.winCount + log.lossCount + log.forfeitCount
    && log.winStreak <= log.maxWinStreak <= log.winCount
    && log.winGuessCountDistribution.Keys == Buckets
    && DistributionTotal(log.winGuessCountDistribution) == log.winCount
    && (forall w :: w in log.solvedWords ==> 1 <= log.solvedWords[w] <= 6)
  }

  /** The events that change the record. */
  datatype LogEvent = Win(word: string, guesses: nat) | Loss | Forfeit | Guess | InvalidWord | Reset

  /** A win is recorded with a guess count of 1 to 6, as the game does. */
  predicate EventOk(e: LogEvent) {
    e.Win? ==> 1 <= e.guesses <= 6
  }

  function Apply(log: GameLog, e: LogEvent): (r: GameLog)
    requires LogInvariant(log) && EventOk(e)
    ensures LogInvariant(r)
  {
    match e
    case Win(word, g) => WinCountKeepsInvariant(log, word, g); UpdateWinCount(log, word, g)
    case Loss => UpdateLossCount(log)
    case Forfeit => UpdateForfeitCount(log)
    case Guess => UpdateGuessCount(log)
    case InvalidWord => UpdateInvalidWordCount(log)
    case Reset => ResetGameLog(log)
  }

  /** A win in 1 to 6 guesses keeps the invariant: the new win lands in
      one bucket, so the buckets still add up to the wins. */
  lemma WinCountKeepsInvariant(log: GameLog, word: string, g: nat)
    requires LogInvariant(log) && 1 <= g <= 6
    ensures LogInvariant(UpdateWinCount(log, word, g))
  {
    var r := UpdateWinCount(log, word, g);
    var d := log.winGuessCountDistribution;
    assert r.winGuessCountDistribution == d[g := d[g] + 1];
    assert DistributionTotal(r.winGuessCountDistribution) == DistributionTotal(d) + 1;
  }

  /** The record after a sequence of events, oldest first. */
  function Replay(log: GameLog, events: seq<LogEvent>): GameLog
    requires LogInvariant(log)
    requires forall i :: 0 <= i < |events| ==> EventOk(events[i])
    decreases |events|
  {
    if |events| == 0 then log
    else Replay(Apply(log, events[0]), events[1..])
  }

  /** Starting from the default record, any sequence of updates keeps the
      invariant; in particular games played always equal wins plus losses
      plus forfeits. */
  lemma {:induction false} ReplayKeepsInvariant(log: GameLog, events: seq<LogEvent>)
    requires LogInvariant(log)
    requires forall i :: 0 <= i < |events| ==> EventOk(events[i])
    ensures LogInvariant(Replay(log, events))
    ensures var r := Replay(log, events);
            r.gamesPlayed == r.winCount + r.lossCount + r.forfeitCount
    decreases |events|
  {
    if |events| > 0 {
      ReplayKeepsInvariant(Apply(log, events[0]), events[1..]);
    }
  }

  /** A counted guess followed by a win in `g` guesses, as a winning
      submission records it, keeps the invariant. */
  lemma WinKeepsInvariant(log: GameLog, word: string, g: nat)
    requires LogInvariant(log) && 1 <= g <= 6
    ensures LogInvariant(UpdateWinCount(UpdateGuessCount(log), word, g))
  {
    assert UpdateWinCount(UpdateGuessCount(log), word, g) == Apply(Apply(log, Guess), Win(word, g));
  }

  /** A counted guess, alone or followed by a loss, as a missed submission
      records it, keeps the invariant. */
  lemma MissKeepsInvariant(log: GameLog)
    requires LogInvariant(log)
    ensures LogInvariant(UpdateGuessCount(log))
    ensures LogInvariant(UpdateLossCount(UpdateGuessCount(log)))
  {
    assert UpdateLossCount(UpdateGuessCount(log)) == Apply(Apply(log, Guess), Loss);
  }

  lemma DefaultSatisfiesInvariant()
    ensures LogInvariant(DefaultGameLog)
  {
  }
}

=== FILE: game_state.dfy ===
/**
 The saved game: the guess grid, the keyboard, the cursor, the outcome and
 error flags and the puzzle number, together with the blank game every new
 puzzle starts from and the manager that holds the current game.

 The alphabet comes from the word list, which is not part of this model;
 it is a parameter here. Persisting the game to browser storage is left
 out: saving and resetting only replace the game the manager holds.
 */
module GameStates {
  import opened Letters

  /** Rows in the grid: the number of guesses allowed. */
  const GuessRows: nat := 6
  /** Cells in a row: the length of a word. */
  const WordLength: nat := 5

  /** The cursor: row, then cell within the row. */
  datatype Cursor = Cursor(row: nat, col: nat)

  datatype GameState = GameState(
    guessMap: seq<seq<LetterState>>,
    letterOptions: seq<LetterState>,
    cursorPointer: Cursor,
    showFail: bool,
    showSuccess: bool,
    showError: bool,
    errorMessage: string,
    puzzleNumber: int)

  /** A blank grid: 6 rows of 5 blank letters. */
  function DefaultGuessMap(): (m: seq<seq<LetterState>>)
    ensures |m| == GuessRows
    ensures forall r :: 0 <= r < |m| ==> |m[r]| == WordLength && AllBlank(m[r])
    ensures forall r, k :: 0 <= r < |m| && 0 <= k < |m[r]| ==> m[r][k] == DefaultLetter
  {
    seq(GuessRows, _ => seq(WordLength, _ => DefaultLetter))
  }

  /** The keyboard: one key per alphabet letter, in alphabet order, every
      flag cleared. */
  function DefaultLetterOptions(alphabet: seq<string>): (keys: seq<LetterState>)
    ensures |keys| == |alphabet|
    ensures forall j :: 0 <= j < |alphabet| ==>
              keys[j].letter == alphabet[j] &&
              !keys[j].containMatch && !keys[j].positionMatch && !keys[j].noMatch && !keys[j].disabled
  {
    seq(|alphabet|, j requires 0 <= j < |alphabet| => DefaultLetter.(letter := alphabet[j]))
  }

  /** The game every puzzle starts from. */
  function DefaultGameState(alphabet: seq<string>): (s: GameState)
    ensures s.guessMap == DefaultGuessMap()
    ensures s.letterOptions == DefaultLetterOptions(alphabet)
    ensures s.cursorPointer == Cursor(0, 0)
    ensures !s.showFail && !s.showSuccess && !s.showError
    ensures s.errorMessage == "" && s.puzzleNumber == 0
  {
    GameState(DefaultGuessMap(), DefaultLetterOptions(alphabet), Cursor(0, 0), false, false, false, "", 0)
  }

  /** The holder of the current game. */
  datatype GameStateManager = GameStateManager(gameState: GameState)

  /** A fresh copy of the default game. */
  function GenerateNewGameState(alphabet: seq<string>): (s: GameState)
    ensures s.guessMap == DefaultGuessMap() && s.cursorPointer == Cursor(0, 0)
    ensures s == DefaultGameState(alphabet)
  {
    DefaultGameState(alphabet)
  }

  /** Replace the held game by `newGameState`. */
  function SaveGameState(m: GameStateManager, newGameState: GameState): (r: GameStateManager)
    ensures r.gameState == newGameState
  {
    m.(gameState := newGameState)
  }

  /** Replace the held game by a fresh default game. */
  function ResetGameState(m: GameStateManager, alphabet: seq<string>): (r: GameStateManager)
    ensures r.gameState == GenerateNewGameState(alphabet)
    ensures r.gameState.cursorPointer == Cursor(0, 0) && !r.gameState.showFail && !r.gameState.showSuccess
  {
    m.(gameState := GenerateNewGameState(alphabet))
  }
}

=== FILE: letters.dfy ===
/**
 The per-letter record shared by the guess grid and the on-screen keyboard,
 the blank letter every empty cell holds, and the difficulty setting.

 A letter is a string because a blank cell holds the empty string; a typed
 cell holds a one-character string.
 */
module Letters {

  /** The three difficulty levels of the game. */
  datatype Difficulty = Normal | Hard | Harder

  /** One cell of a guess row, or one key of the on-screen keyboard. */
  datatype LetterState = LetterState(
    letter: string,
    containMatch: bool,
    positionMatch: bool,
    noMatch: bool,
    disabled: bool)

  /** The blank cell: no letter and every flag cleared. */
  const DefaultLetter: LetterState := LetterState("", false, false, false, false)

  /** A cell as the keyboard handler writes it: the blank cell carrying one letter. */
  function Typed(c: char): (l: LetterState)
    ensures l.letter == [c]
    ensures !l.containMatch && !l.positionMatch && !l.noMatch && !l.disabled
  {
    DefaultLetter.(letter := [c])
  }

  predicate Blank(l: LetterState) {
    l.letter == ""
  }

  /** Every cell of the row is blank. */
  predicate AllBlank(row: seq<LetterState>) {
    forall k :: 0 <= k < |row| ==> Blank(row[k])
  }

  /** The word a row spells: its letters joined together. */
  function Spelled(row: seq<LetterState>): (w: string)
    ensures (forall k :: 0 <= k < |row| ==> |row[k].letter| == 1) ==>
              |w| == |row| && forall k :: 0 <= k < |row| ==> w[k] == row[k].letter[0]
    ensures AllBlank(row) ==> w == ""
  {
    if |row| == 0 then "" else row[0].letter + Spelled(row[1..])
  }

  /** Joining distributes over splitting a row in two. */
  lemma {:induction false} SpelledAppend(a: seq<LetterState>, b: seq<LetterState>)
    ensures Spelled(a + b) == Spelled(a) + Spelled(b)
  {
    if |a| > 0 {
      assert (a + b)[0] == a[0];
      assert (a + b)[1..] == a[1..] + b;
      SpelledAppend(a[1..], b);
    } else {
      assert a + b == b;
    }
  }
}

=== FILE: text.dfy ===
/**
 The string primitives the game leans on: counting the matches of a
 one-letter global regular expression, `indexOf` for a character,
 `includes` for a substring, and the decimal text of a number as a
 template literal prints it.
 */
module Text {

  /** Number of times `c` occurs in `s`: the length of the match list of a
      global regular expression made of the letter `c`, or 0 when it does
      not match at all. */
  function Occurrences(s: string, c: char): (n: nat)
    ensures n <= |s|
    ensures n > 0 <==> c in s
  {
    if |s| == 0 then 0
    else
      assert s == [s[0]] + s[1..];
      (if s[0] == c then 1 else 0) + Occurrences(s[1..], c)
  }

  /** The count agrees with the multiplicity of `c` in the multiset of `s`. */
  lemma {:induction false} OccurrencesIsMultiplicity(s: string, c: char)
    ensures Occurrences(s, c) == multiset(s)[c]
  {
    if |s| > 0 {
      assert s == [s[0]] + s[1..];
      OccurrencesIsMultiplicity(s[1..], c);
    }
  }

  /** Counting a suffix: its first character, then the rest. */
  lemma OccurrencesFrom(s: string, k: nat, c: char)
    requires k < |s|
    ensures Occurrences(s[k..], c) == (if s[k] == c then 1 else 0) + Occurrences(s[k + 1..], c)
  {
    assert s[k..][1..] == s[k + 1..];
  }

  /** Counting distributes over concatenation. */
  lemma {:induction false} OccurrencesAppend(a: string, b: string, c: char)
    ensures Occurrences(a + b, c) == Occurrences(a, c) + Occurrences(b, c)
  {
    if |a| > 0 {
      assert (a + b)[0] == a[0];
      assert (a + b)[1..] == a[1..] + b;
      OccurrencesAppend(a[1..], b, c);
    } else {
      assert a + b == b;
    }
  }

  /** A character counted at least twice occurs somewhere other than any
      given one of its positions. */
  lemma {:induction false} AnotherOccurrence(s: string, c: char, k: nat)
    requires k < |s| && s[k] == c
    requires Occurrences(s, c) >= 2
    ensures exists j :: 0 <= j < |s| && j != k && s[j] == c
  {
    if k == 0 {
      assert Occurrences(s[1..], c) >= 1;
      var j :| 0 <= j < |s[1..]| && s[1..][j] == c;
      assert s[j + 1] == c;
    } else if s[0] == c {
      assert s[0] == c && 0 != k;
    } else {
      AnotherOccurrence(s[1..], c, k - 1);
      var j :| 0 <= j < |s[1..]| && j != k - 1 && s[1..][j] == c;
      assert s[j + 1] == c;
    }
  }

  /** Index of the first `c` in `s`, or -1 when there is none. */
  function IndexOf(s: string, c: char): (r: int)
    ensures -1 <= r < |s|
    ensures r == -1 <==> c !in s
    ensures r >= 0 ==> s[r] == c && c !in s[..r]
  {
    if |s| == 0 then -1
    else if s[0] == c then 0
    else
      var k := IndexOf(s[1..], c);
      assert s == [s[0]] + s[1..];
      if k < 0 then -1
      else
        assert s[..k + 1] == [s[0]] + s[1..][..k];
        k + 1
  }

  /** `t` occurs in `s` starting at index `k`. */
  predicate OccursAt(s: string, t: string, k: int) {
    0 <= k && k + |t| <= |s| && s[k..k + |t|] == t
  }

  /** `s.includes(t)`: `t` occurs in `s` as a contiguous substring. */
  predicate Includes(s: string, t: string) {
    exists k :: 0 <= k <= |s| - |t| && OccursAt(s, t, k)
  }

  /** For a one-letter string, inclusion is membership of that letter:
      only presence counts, not position. */
  lemma IncludesLetter(s: string, t: string)
    requires |t| == 1
    ensures Includes(s, t) <==> t[0] in s
  {
    if t[0] in s {
      var k :| 0 <= k < |s| && s[k] == t[0];
      assert s[k..k + 1] == t;
      assert OccursAt(s, t, k);
    }
    if Includes(s, t) {
      var k :| 0 <= k <= |s| - |t| && OccursAt(s, t, k);
      assert s[k] == s[k..k + 1][0];
    }
  }

  predicate IsDigit(ch: char) {
    '0' <= ch <= '9'
  }

  function DigitChar(d: nat): (ch: char)
    requires d < 10
    ensures IsDigit(ch)
  {
    (('0' as int) + d) as char
  }

  /** Decimal text of a natural number, with no leading zero. */
  function NatToString(n: nat): (s: string)
    ensures |s| >= 1
    ensures forall i :: 0 <= i < |s| ==> IsDigit(s[i])
    ensures s[0] == '0' ==> n == 0
  {
    if n < 10 then [DigitChar(n)] else NatToString(n / 10) + [DigitChar(n % 10)]
  }

  /** The value of a string of decimal digits. */
  function ParseDigits(s: string): nat
    requires forall i :: 0 <= i < |s| ==> IsDigit(s[i])
  {
    if |s| == 0 then 0
    else
      assert IsDigit(s[|s| - 1]);
      10 * ParseDigits(s[..|s| - 1]) + ((s[|s| - 1] as int) - ('0' as int))
  }

  /** Reading the decimal text back gives the number. */
  lemma {:induction false} NatToStringRoundTrip(n: nat)
    ensures ParseDigits(NatToString(n)) == n
  {
    if n >= 10 {
      var s := NatToString(n);
      assert s[..|s| - 1] == NatToString(n / 10);
      NatToStringRoundTrip(n / 10);
    }
  }

  /** Decimal text of an integer, with a minus sign when negative. */
  function IntToString(i: int): (s: string)
    ensures i >= 0 ==> s == NatToString(i)
    ensures i < 0 ==> |s| >= 2 && s[0] == '-' && s[1..] == NatToString(-i)
  {
    if i < 0 then "-" + NatToString(-i) else NatToString(i)
  }
}

=== FILE: util.dfy ===
/**
 The display helpers: the CSS class of a letter, the emoji share text of a
 finished game, and the check for a guess already tried in an earlier row.
 */
module Util {
  import opened Letters
  import opened Text

  const NoMatchClass: string := "no-match"
  const ContainMatchClass: string := "contain-match"
  const PositionMatchClass: string := "position-match"

  /** CSS class of a cell or key. A position match wins over everything;
      a contain match shows only without a position match; a no-match
      shows only when neither match flag is set; no flag gives "". */
  function DetermineLetterClass(l: LetterState): (cls: string)
    ensures l.positionMatch ==> cls == PositionMatchClass
    ensures cls == PositionMatchClass <==> l.positionMatch
    ensures cls == ContainMatchClass <==> l.containMatch && !l.positionMatch
    ensures cls == NoMatchClass <==> l.noMatch && !l.containMatch && !l.positionMatch
    ensures cls == "" <==> !l.noMatch && !l.containMatch && !l.positionMatch
  {
    if l.noMatch && !l.positionMatch && !l.containMatch then NoMatchClass
    else if l.containMatch && !l.positionMatch then ContainMatchClass
    else if l.positionMatch then PositionMatchClass
    else ""
  }

  const GreenSquare: char := '\U{1F7E9}'
  const YellowSquare: char := '\U{1F7E8}'
  const BlackSquare: char := '\U{2B1B}'

  /** The share symbol of one letter. The three cases are exhaustive and
      exclusive, so every letter yields exactly one symbol. */
  function ShareSymbol(l: LetterState): (ch: char)
    ensures ch == GreenSquare <==> l.positionMatch
    ensures ch == YellowSquare <==> l.containMatch && !l.positionMatch
    ensures ch == BlackSquare <==> !l.containMatch && !l.positionMatch
  {
    if !l.containMatch && !l.positionMatch then BlackSquare
    else if l.containMatch && !l.positionMatch then YellowSquare
    else GreenSquare
  }

  /** The share symbol agrees with the class shown on screen: green for a
      position match, yellow for a contain match, black for a no-match or
      an unmarked letter. */
  lemma ShareSymbolMatchesClass(l: LetterState)
    ensures ShareSymbol(l) == GreenSquare <==> DetermineLetterClass(l) == PositionMatchClass
    ensures ShareSymbol(l) == YellowSquare <==> DetermineLetterClass(l) == ContainMatchClass
    ensures ShareSymbol(l) == BlackSquare <==>
              DetermineLetterClass(l) == NoMatchClass || DetermineLetterClass(l) == ""
  {
  }

  /** The symbols of a row, appended letter by letter. */
  function RowSymbols(row: seq<LetterState>): (s: string)
    ensures |s| == |row|
    ensures forall k :: 0 <= k < |row| ==> s[k] == ShareSymbol(row[k])
  {
    if |row| == 0 then "" else RowSymbols(row[..|row| - 1]) + [ShareSymbol(row[|row| - 1])]
  }

  /** Rows that are not entirely blank, in their original order. */
  function KeptRows(rows: seq<seq<LetterState>>): (kept: seq<seq<LetterState>>)
    ensures |kept| <= |rows|
    ensures forall j :: 0 <= j < |kept| ==> !AllBlank(kept[j])
    ensures (forall k :: 0 <= k < |rows| ==> !AllBlank(rows[k])) ==> kept == rows
    ensures (forall k :: 0 <= k < |rows| ==> AllBlank(rows[k])) ==> kept == []
  {
    if |rows| == 0 then []
    else
      var rest := KeptRows(rows[..|rows| - 1]);
      assert rows == rows[..|rows| - 1] + [rows[|rows| - 1]];
      if AllBlank(rows[|rows| - 1]) then rest else rest + [rows[|rows| - 1]]
  }

  /** The kept rows are exactly the rows that are not entirely blank. */
  lemma {:induction false} KeptRowsMembers(rows: seq<seq<LetterState>>, r: seq<LetterState>)
    ensures r in KeptRows(rows) <==> r in rows && !AllBlank(r)
  {
    if |rows| > 0 {
      var front := rows[..|rows| - 1];
      KeptRowsMembers(front, r);
      assert rows == front + [rows[|rows| - 1]];
    }
  }

  /** Filtering distributes over splitting the rows in two. */
  lemma {:induction false} KeptRowsAppend(a: seq<seq<LetterState>>, b: seq<seq<LetterState>>)
    ensures KeptRows(a + b) == KeptRows(a) + KeptRows(b)
    decreases |b|
  {
    if |b| == 0 {
      assert a + b == a;
    } else {
      assert (a + b)[..|a + b| - 1] == a + b[..|b| - 1];
      KeptRowsAppend(a, b[..|b| - 1]);
    }
  }

  /** The body of the share text: one line of symbols per row. */
  function ShareBody(rows: seq<seq<LetterState>>): string {
    if |rows| == 0 then "" else ShareBody(rows[..|rows| - 1]) + RowSymbols(rows[|rows| - 1]) + "\n"
  }

  /** Where line `r` of a body of width-`w` rows starts: `r * (w + 1)`. */
  function LineStart(r: nat, w: nat): (o: nat)
    ensures o == r * (w + 1)
    ensures forall q :: 0 <= q < r ==> LineStart(q, w) + w < o
  {
    if r == 0 then 0 else LineStart(r - 1, w) + w + 1
  }

  /** A body of `n` rows of width `w` is `n * (w + 1)` characters long. */
  lemma {:induction false} ShareBodyLength(rows: seq<seq<LetterState>>, w: nat)
    requires forall r :: 0 <= r < |rows| ==> |rows[r]| == w
    ensures |ShareBody(rows)| == LineStart(|rows|, w)
  {
    if |rows| > 0 {
      ShareBodyLength(rows[..|rows| - 1], w);
    }
  }

  /** Character `k` of line `r` of the body is the symbol of letter `k` of
      row `r`, and the character after the last letter is a newline. */
  lemma {:induction false} ShareBodyAt(rows: seq<seq<LetterState>>, w: nat, r: nat, k: nat)
    requires forall q :: 0 <= q < |rows| ==> |rows[q]| == w
    requires r < |rows| && k <= w
    ensures LineStart(r, w) + k < |ShareBody(rows)|
    ensures ShareBody(rows)[LineStart(r, w) + k] == if k < w then ShareSymbol(rows[r][k]) else '\n'
  {
    var n := |rows| - 1;
    var front := rows[..n];
    var head := ShareBody(front);
    var line := RowSymbols(rows[n]) + "\n";
    ShareBodyLength(rows, w);
    ShareBodyLength(front, w);
    assert ShareBody(rows) == head + line;
    if r < n {
      ShareBodyAt(front, w, r, k);
      assert front[r] == rows[r];
    } else {
      assert ShareBody(rows)[LineStart(r, w) + k] == line[k];
    }
  }

  /** The first line of the share text and the blank line after it: the
      title, the puzzle number, a space, the score, then "/6". Each piece
      can be read back at its offset. */
  function ShareHeader(puzzleNumber: int, score: string): (h: string)
    ensures var num := IntToString(puzzleNumber);
            |h| == 11 + |num| + 1 + |score| + 4 &&
            h[..11] == "Word Guess " &&
            h[11..11 + |num|] == num &&
            h[11 + |num|] == ' ' &&
            h[12 + |num|..12 + |num| + |score|] == score &&
            h[12 + |num| + |score|..] == "/6\n\n"
  {
    var title := "Word Guess ";
    var num := IntToString(puzzleNumber);
    var tail := "/6" + "\n\n";
    var front := title + num + " ";
    var h := front + score + tail;
    assert |title| == 11 && |tail| == 4;
    var body := front + score;
    assert h[..|body|] == body && h[|body|..] == tail;
    assert body[..|front|] == front && body[|front|..] == score;
    assert h[|front|..|front| + |score|] == body[|front|..];
    var named := title + num;
    assert front[..|named|] == named && front[|named|] == ' ';
    assert named[..11] == title && named[11..] == num;
    assert h[..11] == named[..11] && h[11..11 + |num|] == named[11..];
    h
  }

  /** The share text: a header with the puzzle number and either the number
      of non-blank rows or "X" for a failed game, then the body of the
      non-blank rows. */
  function GenerateShareText(guessArray: seq<seq<LetterState>>, puzzleNumber: int, fail: bool): (text: string)
    ensures var kept := KeptRows(guessArray);
            var header := ShareHeader(puzzleNumber, if fail then "X" else NatToString(|kept|));
            |text| == |header| + |ShareBody(kept)| &&
            text[..|header|] == header &&
            text[|header|..] == ShareBody(kept)
  {
    var rows := KeptRows(guessArray);
    ShareHeader(puzzleNumber, if fail then "X" else NatToString(|rows|)) + ShareBody(rows)
  }

  /** `guessArray.slice(0, cursorRow).some(row => join(row) === guess)`,
      scanned the way `some` does. */
  function AnySpells(rows: seq<seq<LetterState>>, guess: string): (b: bool)
    ensures b <==> exists r :: 0 <= r < |rows| && Spelled(rows[r]) == guess
  {
    if |rows| == 0 then false
    else Spelled(rows[0]) == guess || AnySpells(rows[1..], guess)
  }

  /** The guess was already spelled by a row strictly above the cursor row. */
  function PreviousGuess(guess: string, guessArray: seq<seq<LetterState>>, cursorRow: nat): (b: bool)
    ensures b <==> exists r :: 0 <= r < cursorRow && r < |guessArray| && Spelled(guessArray[r]) == guess
  {
    var upto := if cursorRow < |guessArray| then cursorRow else |guessArray|;
    var found := AnySpells(guessArray[..upto], guess);
    assert found ==> exists r :: 0 <= r < cursorRow && r < |guessArray| && Spelled(guessArray[r]) == guess by {
      if found {
        var r :| 0 <= r < upto && Spelled(guessArray[..upto][r]) == guess;
        assert Spelled(guessArray[r]) == guess;
      }
    }
    assert (exists r :: 0 <= r < cursorRow && r < |guessArray| && Spelled(guessArray[r]) == guess) ==> found by {
      if exists r :: 0 <= r < cursorRow && r < |guessArray| && Spelled(guessArray[r]) == guess {
        var r :| 0 <= r < cursorRow && r < |guessArray| && Spelled(guessArray[r]) == guess;
        assert guessArray[..upto][r] == guessArray[r];
      }
    }
    found
  }
}
